=== FILE: README.md ===
# Social-to-Lead workflow in Dafny

A model of the deterministic core of the Social-to-Lead chat bot. The bot has
three layers, and each becomes pure functions over immutable values.

- **Intent classification and routing.** The classifier model's answer is
  trimmed, upper-cased and searched for LEAD, then INQUIRY. `route_intent`
  turns the stored label into one of three handler nodes.
- **The lead slot-filling node.** It works out which of name, e-mail and
  platform are still missing. If none are, it captures the lead. Otherwise
  it pulls a JSON candidate out of the model's answer: the fenced block
  first, then the first-`{`-to-last-`}` span. It drops empty values, checks
  the e-mail, and merges the new values over the old ones.
- **The HTTP layer.** Per-user state is saved and loaded under the key
  `user_state:<id>`. The `/chat`, `/chat/reset` and WhatsApp webhook
  endpoints apply their request rules around one workflow turn.

Every model call is an input. It is either `Returned(text)` or `Raised`, the
`Try` type in `common.dfy`. `json.loads` is the function parameter `loads`,
which gives `None` where the parser would raise. The key-value store is a
`map<string, Record>`.

Files, one module each:

- `common.dfy` — `Option` and `Try`.
- `text.dfy` — the Python string operations the code relies on:
  - whitespace as `str.isspace` and the regex class `\s` define it;
  - `strip`, `find` and `in`;
  - ASCII `upper` and `lower`;
  - `replace(pat, "")`;
  - `split` on one character.
- `json.dfy` — decoded JSON values, Python truthiness, dictionary lookup and
  `str()`, which shows an object as the dictionary its pairs build.
- `email.dfy` — `is_valid_email`.
- `intent.dfy` — the label chosen inside `intent_classifier`.
- `extraction.dfy` — the two regular expressions of `extract_json`, written
  as hand-made matchers.
- `agents.dfy` — `AgentState`, the update rule of the graph, and
  `route_intent`.
- `lead.dfy` — `lead_capture_agent` and `mock_lead_capture`.
- `graph.dfy` — one run of the compiled graph: classify, route, handle.
- `api.dfy` — the state codec, the store helpers and the three endpoints.

Four behaviours of the code are easy to misread, and the model keeps each
as written:

- `a@b.c` is accepted by `is_valid_email`: the domain `b.c` holds a dot and
  has length 3, and the length test is `> 2`.
- A webhook turn that raises persists nothing, not even the user's new
  message: the state is saved only after the workflow returns.
- `route_intent` compares the upper-cased label for equality with LEAD and
  INQUIRY; it does not search for them. Because the classifier stores one of
  its three labels, the route still follows the classifier's containment
  test (lemma `Graph.RouteAfterClassify`).
- The classifier strips its answer before upper-casing it. Stripping never
  changes the label (lemma `Intent.ClassifyIgnoresPadding`).

## Model

| member | source | states |
|---|---|---|
| `Email.IsValidEmail` | tools.py:17-25 | An accepted address has exactly one `@`. |
| `Email.RejectsWithoutAt` | tools.py:19-20 | A text without `@` is rejected. |
| `Email.RejectsSeveralAts` | tools.py:21-23 | Two or more `@` give more than two parts and are rejected. |
| `Email.OneAtVerdict` | tools.py:24-25 | With one `@`, the address is accepted iff the domain contains `.` and is longer than two characters. The local part is never examined. |
| `Email.AcceptsEmptyLocal` | tools.py:24-25 | `@b.c` is accepted. |
| `Email.AcceptsShortDomain` | tools.py:24-25 | `a@b.c` is accepted: a three-character domain is long enough. |
| `Email.RejectsTwoCharDomain` | tools.py:25 | `a@.c` is rejected. |
| `Email.RejectsDotlessDomain` | tools.py:25 | `a@bc` is rejected. |
| `Email.RejectsTwoAts` | tools.py:21-23 | `a@b@c.com` is rejected. |
| `Intent.Normalize` | tools.py:42 | The text the classifier searches is the stripped answer with each character upper-cased in place. It has the stripped answer's length, no padding and no small ASCII letter. |
| `Intent.ClassifyIntent` | tools.py:42-50 | The label is LEAD, INQUIRY or GREETING. LEAD iff the trimmed, upper-cased answer contains LEAD. INQUIRY iff it contains INQUIRY but not LEAD. GREETING otherwise. |
| `Intent.LeadWinsOverInquiry` | tools.py:43-46 | An answer that mentions both labels is classified LEAD. |
| `Intent.UpperKeepsLabel` | tools.py:44-48 | Each stored label is its own upper-case form. |
| `Intent.TrimKeepsWords` | tools.py:42 | Trimming neither adds nor removes occurrences of a word without spaces. |
| `Intent.ClassifyIgnoresPadding` | tools.py:42-48 | The label depends only on the upper-cased answer: surrounding whitespace never changes it. |
| `Extraction.FenceBody` | tools.py:55-57 | The fenced pattern matches iff the reply holds two non-overlapping "```" markers. The capture is the text after the first marker and an optional `json` tag, up to the next marker, with whitespace removed from both ends. It contains no marker. |
| `Extraction.BraceSpan` | tools.py:59-61 | A match starts with `{`, ends with `}` and has at least two characters. |
| `Extraction.BraceSpanExists` | tools.py:59-61 | The object pattern matches iff some `{` comes before some `}`. |
| `Extraction.BraceSpanBounds` | tools.py:59-61 | The match is a piece of the text with no `{` before it and no `}` after it, so it is the greedy first-to-last span. |
| `Extraction.BraceSpanWindow` | tools.py:59-61 | Text without braces around a piece never changes the object span. |
| `Extraction.Candidate` | tools.py:53-63 | The text handed to `json.loads` is always a piece of the reply. When no `{`…`}` span is found, the text passes through unchanged: the fence body if there is a fence, otherwise the whole reply. |
| `Extraction.PlainTextPassesThrough` | tools.py:53-63 | A reply with no fence marker and no `{` before a `}` is handed to `json.loads` exactly as it is. |
| `Extraction.FencedReducesToBody` | tools.py:55-61 | Once a fenced block is found, the candidate is what the block's body alone would give. |
| `Extraction.FencedWrapSameCandidate` | tools.py:53-63 | Wrapping an object `s` as "```json", whitespace, `s`, whitespace, "```" gives the same candidate as `s`. This needs `s` to have an object span and no marker of its own, and, when no whitespace follows `s`, `s` must not end in a backtick. A JSON object ends in `}`, so that last condition holds for every object. |
| `Agents.Apply` | agents.py:7-10 | History is append-only: the old messages stay as a prefix and the node's messages follow. Every other key changes only when the node returns it. |
| `Agents.ApplyNothing` | agents.py:7 | An update with no messages and no keys leaves the state unchanged. |
| `Agents.ApplyTwice` | agents.py:7-10 | Two updates in a row equal one update carrying both message lists in order, with the later value winning for each other key. |
| `Agents.RouteIntent` | agents.py:12-19 | The route is one of the three registered handlers. `lead_agent` iff the upper-cased label equals LEAD. `rag_agent` iff it equals INQUIRY. `greeter` otherwise. |
| `Agents.RouteReadsOnlyIntents` | agents.py:13 | Two states with the same `intents` take the same route, whatever their details and flag. |
| `Agents.RouteExamples` | agents.py:13-19 | `lead` goes to the lead handler. An empty label and `GREETING` go to the greeter. |
| `LeadAgent.CaptureResult` | tools.py:9-15 | The capture tool's result names the three details in order, each at a fixed position after `Lead captured: ` and the `, ` separators. |
| `LeadAgent.FinalText` | tools.py:79 | The closing message greets the lead by name and ends with the capture tool's result. |
| `LeadAgent.InvalidEmailText` | tools.py:118 | The invalid-e-mail reply opens with `Hmm, '`, then the shown value, then a closing `'`. |
| `JsonValue.Keys` | tools.py:118 | The keys of a dictionary are those with at least one pair, each listed once, in the order of their first pair. |
| `JsonValue.ReprOfDict` | tools.py:118 | `str()` of an object depends only on the dictionary its pairs build and the order of its keys. |
| `JsonValue.ReprRepeatedKey` | tools.py:118 | A key repeated in an object is shown once, with its last value. |
| `JsonValue.ReprRepeatedKeyExample` | tools.py:118 | `{"x": 2, "x": 3}` is shown as `{'x': 3}`. |
| `LeadAgent.MissingFields` | tools.py:68-70 | A field is missing iff it is required and absent or falsy. The missing fields come in the order name, email, platform. |
| `LeadAgent.EmailVerdict` | tools.py:114-116 | A string e-mail is checked by `is_valid_email`. Numbers, booleans and null make the check raise. A list or dictionary makes it raise exactly when `"@"` is one of its items or keys, and is judged invalid otherwise. Only a string can pass. |
| `LeadAgent.KeepTruthy` | tools.py:111 | An entry is kept iff its value is truthy, and kept values are unchanged. |
| `LeadAgent.ParseReply` | tools.py:105-111 | Parsing succeeds iff the candidate loads to an object whose `collected` entry (default `{}`) is an object. The collected keys are exactly those of that entry with a truthy value, each with its value as looked up there. `response_text` is the object's entry of that name, or `""` when absent. |
| `LeadAgent.Fallback` | tools.py:128-132 | The fallback carries the fixed reply and no other key. |
| `LeadAgent.Respond` | tools.py:113-132 | Given the parsed answer (or none, when parsing failed), the node adds exactly one AI message and never sets `intents` or the capture flag. The details it returns keep every old key, and each value is either the old one or truthy. |
| `LeadAgent.Collect` | tools.py:105-132 | The collection path adds exactly one AI message and never sets `intents` or the capture flag. The details it returns keep every old key. Each value is either the old one or truthy. |
| `LeadAgent.LeadCapture` | tools.py:66-132 | While a field is missing, the node raises iff the model call raised; when the call returned, the node's update is the collection path's result for that answer. It adds one AI message. It sets the capture flag only when nothing was missing. |
| `LeadAgent.CollectingMerges` | tools.py:97-127 | While a field is missing, an answer that parses, whose e-mail is absent or accepted and whose `response_text` is a string, becomes one AI message with that text and the old details merged with the collected ones. |
| `LeadAgent.CompleteInfoCaptures` | tools.py:72-81 | With all three details present as strings, the update is the fixed closing message plus `lead_captured = true`, whatever the model would answer. |
| `LeadAgent.NonStringDetailRaises` | tools.py:72-77 | A complete record with a non-string detail makes the capture tool call raise. |
| `LeadAgent.MergeLastWriteWins` | tools.py:122-127 | For a parsed answer whose e-mail, if any, passes: after the merge, the keys are the union of old and new. New values win. Keys that were not collected keep their old values. The reply is `response_text`. |
| `LeadAgent.InvalidEmailKeepsInfo` | tools.py:114-120 | A rejected e-mail leaves the details as they were, drops everything collected in that turn, and quotes the rejected value as `str()` shows it: a key repeated inside it appears once, with its last value. |
| `LeadAgent.InvalidStringEmail` | tools.py:114-120 | A string e-mail without `@` is refused and quoted as typed. |
| `LeadAgent.EmailCheckRaisesFallsBack` | tools.py:114-132 | When the e-mail check itself raises (a number, a boolean, null, or a list or dictionary holding `"@"`), the node answers with the fixed fallback and no details. |
| `LeadAgent.NonStringReplyFallsBack` | tools.py:124-132 | An answer that passes the e-mail check but whose `response_text` is not a string falls back the same way. |
| `LeadAgent.ParseFailureFallsBack` | tools.py:128-132 | An answer that cannot be parsed yields the fixed fallback and no details. |
| `LeadAgent.EmptyObjectParses` | tools.py:106-111 | `{}` parses to nothing collected and an empty `response_text`. |
| `LeadAgent.EmptyObjectUsesDefaults` | tools.py:107-108 | `{}` is not a failure: the reply is empty and the details are unchanged. |
| `LeadAgent.FalsyValuesDropped` | tools.py:111 | A collected entry with a falsy value is not merged. |
| `LeadAgent.CollectNeverLosesFields` | tools.py:113-127 | Whatever the parsed answer, the details the node returns never lack a field that was present before. |
| `LeadAgent.CollectNeverCaptures` | tools.py:124-127 | The collection path never sets `lead_captured`. |
| `LeadAgent.NameAndEmailCollected` | tools.py:113-127 | A first answer that collects a non-empty name and a valid e-mail stores both and passes the model's question on. |
| `LeadAgent.OnlyPlatformMissing` | tools.py:69-70 | With a name and an e-mail known, only `platform` is missing. |
| `Graph.Handle` | graph.py:8-11 | `lead_agent` runs the lead node. The other two nodes add the model's answer as one AI message, or raise with it. |
| `Graph.Turn` | graph.py:13-17 | A turn raises if the classifier call raises. After a successful classification, the turn raises exactly when the node its label routes to raises. A successful turn adds exactly one AI message after the unchanged history and stores the classifier's label. |
| `Graph.RouteAfterClassify` | agents.py:12-19 | After classification, the route is `lead_agent` iff the trimmed, upper-cased answer contains LEAD. It is `rag_agent` iff the answer contains INQUIRY but not LEAD. |
| `Graph.LeadRecapturedEveryTurn` | tools.py:72-81 | Every LEAD turn with a complete record captures the lead again with the same message, even when it was captured before. |
| `Graph.CollectingKeepsFlag` | tools.py:122-127 | A LEAD turn that starts with a field missing leaves `lead_captured` as it was, even when the merge completes the record. |
| `Graph.HandlerFailureRaises` | graph.py:13-17 | When the answer routes to a node that calls the model (not LEAD, or LEAD with a field missing) and that call raises, the whole turn raises. |
| `Graph.CaptureFailureRaises` | tools.py:72-81 | A LEAD turn over a complete record with a non-string detail raises, whatever the model would have answered. |
| `Graph.LeadTurnMerges` | graph.py:13-17 | A LEAD turn with a field missing, whose answer parses with an accepted or absent e-mail and a string `response_text`, ends in the old history plus that text, the label LEAD, the old details merged with the collected ones, and the flag unchanged. |
| `Graph.OtherTurnsKeepDetails` | graph.py:13-17 | A turn that does not route to the lead node keeps the details and the flag, and appends the model's answer verbatim. |
| `Api.Key` | api.py:28 | A user's key is `user_state:` followed by the user id. |
| `Api.KeyInjective` | api.py:28 | Two users never share a store key. |
| `Api.EncodeMessages` | api.py:57-62 | Only `human` and `ai` entries are written, at most one per message. |
| `Api.DecodeMessages` | api.py:34-40 | Loading rebuilds only human and AI messages, at most one per entry. |
| `Api.DecodeEncodeMessages` | api.py:34-40 | Loading saved messages gives back the human and AI messages in order, with their contents. |
| `Api.DecodeSkipsUnknown` | api.py:35-39 | A stored entry of any other type is skipped. |
| `Api.EncodeDropsOther` | api.py:58-62 | A message that is neither human nor AI is not saved. |
| `Api.Encode` | api.py:64-69 | The saved document always has exactly the four fields. |
| `Api.Decode` | api.py:31-49 | An empty value reads as the fresh state. A stored document is returned as loaded, so an absent field stays absent; the model gives such a field the default (`{}`, `""`, `false`) that every reader of the state applies later (tools.py:68, api.py:66-68, api.py:114). |
| `Api.DecodeEncode` | api.py:52-69 | Saving then loading loses only messages that are neither human nor AI. |
| `Api.RoundTrip` | api.py:26-71 | For a history of human and AI messages, saving then loading reproduces the state exactly. |
| `Api.Fresh` | api.py:44-49 | A new user has no messages and is not captured, lacks all three details, and is routed to the greeter. |
| `Api.EmptyDocIsFresh` | api.py:44-49 | A document with none of the four fields reads as the fresh state. |
| `Api.GetState` | api.py:26-49 | A missing key gives the fresh state: no messages, no details, empty label, not captured. |
| `Api.Save` | api.py:52-71 | Saving writes this user's key and leaves every other key as it was. |
| `Api.Clear` | api.py:74-77 | Clearing removes this user's key and no other. |
| `Api.GetAfterSave` | api.py:26-71 | Loading right after saving gives the saved state. |
| `Api.OtherUsersUntouched` | api.py:54 | Saving or clearing one user never changes what another user loads. |
| `Api.GetAfterClear` | api.py:76-77 | After clearing, the user loads the fresh state. |
| `Api.Incoming` | api.py:102-103 | A turn starts from the stored history with the user's message appended. The stored details, label and flag are carried in unchanged. |
| `Api.Chat` | api.py:88-115 | `/chat` answers 400 iff `user_id` or `message` is missing or empty, with the fixed detail. It changes the store only on success, and replies with the caller's id. When the request is well-formed but the workflow raises, the exception escapes the handler (a server error) before the save, so the store is left as it was. |
| `Api.ChatPersistsTurn` | api.py:102-115 | After a successful chat, the user loads the turn's output: the old history, the message and the reply. The response is the reply's content and the capture flag. |
| `Api.ResetChat` | api.py:118-128 | `/chat/reset` answers 400 iff `user_id` is missing or empty. Otherwise that user loads the fresh state afterwards and every other user is untouched. |
| `Api.SenderId` | api.py:146 | The user id is never longer than the sender address and carries no padding. |
| `Api.SenderIdOfAddress` | api.py:146 | For a sender written as `whatsapp:` plus an unpadded number, the user id is the number. |
| `Api.SenderIdPadded` | api.py:146 | `" whatsapp:+1"` gives `+1`: the padding is stripped after the prefix is removed. |
| `Api.SenderIdRepeated` | api.py:146 | `"whatsapp:+1whatsapp:"` gives `+1`: every occurrence of the prefix is removed, not only a leading one. |
| `Text.RemoveAllFirst` | api.py:146 | `replace(pat, "")` keeps the text before the leftmost occurrence, drops the occurrence, and goes on after it. Together with `Text.RemoveAllAbsent`, this fixes the result for every text. |
| `Text.RemoveAllAbsent` | api.py:146 | A text without an occurrence is returned unchanged. |
| `Text.RemoveAllJoins` | api.py:146 | One pass only: `"whatswhatsapp:app:"` becomes `"whatsapp:"`, because the occurrence that the deletion creates is not removed. |
| `Api.IsResetCommand` | api.py:147-150 | A body is a reset command iff, once trimmed, it spells `reset`, `restart` or `start over` with any ASCII capitals. |
| `Api.Webhook` | api.py:133-172 | A reset command clears the sender's state and sends the fixed text. A turn that raises is answered with the apology and leaves the store as it was, so the new message is not kept either. |
| `Api.WebhookPersistsTurn` | api.py:156-163 | Any other message runs one turn. On success, the reply is the turn's last message and the sender loads the turn's output. |
| `Api.ResetIgnoresModel` | api.py:149-154 | A reset command never reaches the workflow: the outcome does not depend on the model's answers, and the sender starts afresh. |
| `Api.PaddedResetCommand` | api.py:147-150 | ` RESET\n` counts as a reset command: the body is trimmed and lower-cased first. |
| `Api.ResetThenStartAfresh` | api.py:149-158 | The message after a reset starts a new history that holds only itself. |

## Left out

- Model calls, prompts and retrieval (`llm.invoke`, the embeddings and the vector store). Their answers are inputs, and a failing call is `Raised`.
- JSON parsing. `json.loads` is an abstract function parameter. JSON numbers are integers, because floating point is left out.
- The `[TOOL]` and debug `print` output. It is console I/O.
- Redis networking and the 24-hour expiry. Time is not modelled, so a saved state never expires.
- FastAPI request parsing, HTTP status plumbing and TwiML rendering. The endpoints return the values they would render. The health and webhook-verification endpoints return constants.
- Request fields that are JSON values other than strings. `/chat` and `/chat/reset` fields are modelled as an optional string, so a non-string `user_id` or `message` is not modelled.
- Message identifiers. `add_messages` replaces a message whose id is already in the history. Every message here is new, so it is modelled as a plain append.
- Message content that is a list of parts. Content is always a string. A non-string `response_text` is modelled as making the AI message constructor raise, which leads to the fallback.
- Non-ASCII case mapping. `upper()` and `lower()` map only ASCII letters. Python would also map other letters.
- Escaping in `repr`. A string inside a list or dictionary shown in the invalid-e-mail reply is quoted without escaping.
- Key order of dictionaries. The details are a map. Order only shows in the prompt text, which is left out.
- `LeadAgent.LeadCapture`: assumes the capture tool validates its three `str` parameters strictly, as pydantic 2 does, so a non-string detail raises instead of being converted to a string.
- Concurrent turns for the same user racing on one key. This is concurrency.
- The command-line loop and knowledge-base loading. These are I/O.

=== FILE: agents.dfy ===
/** The conversation state shared by the workflow's nodes (`AgentState`),
    the rule by which a node's partial result is folded into it, and the
    router that picks the handler after classification (`route_intent`). */
module Agents {
  import opened Common
  import opened JsonValue
  import opened Text

  /** A chat message. Only human and AI messages are produced by the
      workflow; `Other` stands for any further message class (system, tool),
      which the store does not keep. */
  datatype Message = Human(content: string) | Ai(content: string) | Other(content: string)

  /** What has been collected about the lead so far, by field name. */
  type UserInfo = map<string, Json>

  datatype State = State(
    messages: seq<Message>,
    intents: string,
    userInfo: UserInfo,
    leadCaptured: bool)

  /** A node's return value: the messages to add and the keys it sets. A key
      the node does not return is `None` and keeps its value. */
  datatype Update = Update(
    messages: seq<Message>,
    intents: Option<string>,
    userInfo: Option<UserInfo>,
    leadCaptured: Option<bool>)

  /** An update that only adds messages. */
  function Say(messages: seq<Message>): Update {
    Update(messages, None, None, None)
  }

  function Or<T>(o: Option<T>, otherwise: T): T {
    match o
    case Some(v) => v
    case None => otherwise
  }

  /** Folding an update into the state: messages go through the append
      reducer, every other key is overwritten only when the update has it. */
  function Apply(s: State, u: Update): (r: State)
    ensures |r.messages| == |s.messages| + |u.messages|
    ensures r.messages[..|s.messages|] == s.messages
    ensures r.messages[|s.messages|..] == u.messages
    ensures u.intents.None? ==> r.intents == s.intents
    ensures u.userInfo.None? ==> r.userInfo == s.userInfo
    ensures u.leadCaptured.None? ==> r.leadCaptured == s.leadCaptured
    ensures u.intents.Some? ==> r.intents == u.intents.value
    ensures u.userInfo.Some? ==> r.userInfo == u.userInfo.value
    ensures u.leadCaptured.Some? ==> r.leadCaptured == u.leadCaptured.value
  {
    State(
      s.messages + u.messages,
      Or(u.intents, s.intents),
      Or(u.userInfo, s.userInfo),
      Or(u.leadCaptured, s.leadCaptured))
  }

  /** An update that carries nothing leaves the state as it is. */
  lemma ApplyNothing(s: State)
    ensures Apply(s, Say([])) == s
  {
    assert s.messages + [] == s.messages;
  }

  /** Two updates in a row act like one that carries both updates' messages
      in order and, for every other key, the later value if there is one. */
  lemma ApplyTwice(s: State, u: Update, v: Update)
    ensures Apply(Apply(s, u), v) ==
            Apply(s, Update(
              u.messages + v.messages,
              if v.intents.Some? then v.intents else u.intents,
              if v.userInfo.Some? then v.userInfo else u.userInfo,
              if v.leadCaptured.Some? then v.leadCaptured else u.leadCaptured))
  {
    assert s.messages + u.messages + v.messages == s.messages + (u.messages + v.messages);
  }

  const LeadNode := "lead_agent"
  const RagNode := "rag_agent"
  const GreeterNode := "greeter"

  /** The handler nodes the graph registers besides the classifier. */
  const Handlers: set<string> := {LeadNode, RagNode, GreeterNode}

  /** `route_intent`: the upper-cased label must equal LEAD or INQUIRY
      exactly; anything else goes to the greeter. */
  function RouteIntent(s: State): (node: string)
    ensures node in Handlers
    ensures node == LeadNode <==> Upper(s.intents) == "LEAD"
    ensures node == RagNode <==> Upper(s.intents) == "INQUIRY"
    ensures node == GreeterNode <==> Upper(s.intents) != "LEAD" && Upper(s.intents) != "INQUIRY"
  {
    var intent := Upper(s.intents);
    if intent == "LEAD" then LeadNode
    else if intent == "INQUIRY" then RagNode
    else GreeterNode
  }

  /** Routing looks at `intents` only: the collected details and the capture
      flag never influence it. */
  lemma RouteReadsOnlyIntents(s: State, t: State)
    requires s.intents == t.intents
    ensures RouteIntent(s) == RouteIntent(t)
  {
  }

  /** The label is compared after upper-casing, so a lower-case `lead`
      reaches the lead handler too, while an empty label goes to the greeter. */
  lemma RouteExamples(s: State)
    ensures s.intents == "lead" ==> RouteIntent(s) == LeadNode
    ensures s.intents == "" ==> RouteIntent(s) == GreeterNode
    ensures s.intents == "GREETING" ==> RouteIntent(s) == GreeterNode
  {
    if s.intents == "lead" {
      assert Upper("lead") == "LEAD";
    }
    if s.intents == "GREETING" {
      assert Upper("GREETING")[0] == 'G';
    }
  }
}

=== FILE: api.dfy ===
/** The HTTP layer: the per-user state kept in a key-value store and the
    three endpoints that drive a turn. The store is a map from keys to
    records; expiry is not modelled. A record is either empty (a stored
    value that is falsy) or a document whose four fields may be absent. */
module Api {
  import opened Common
  import opened Text
  import opened JsonValue
  import opened Agents
  import opened LeadAgent
  import opened Graph

  const KeyPrefix := "user_state:"

  /** The store key of one user's state. */
  function Key(userId: string): (k: string)
    ensures |k| == |KeyPrefix| + |userId|
    ensures k[..|KeyPrefix|] == KeyPrefix && k[|KeyPrefix|..] == userId
  {
    KeyPrefix + userId
  }

  /** Different users never share a key. */
  lemma KeyInjective(a: string, b: string)
    requires Key(a) == Key(b)
    ensures a == b
  {
    assert a == Key(a)[|KeyPrefix|..];
    assert b == Key(b)[|KeyPrefix|..];
  }

  /** A message as stored: its type tag and its content. */
  datatype StoredMessage = StoredMessage(kind: string, content: string)

  datatype Record =
    | Blank
    | Doc(messages: Option<seq<StoredMessage>>,
          userInfo: Option<UserInfo>,
          intents: Option<string>,
          leadCaptured: Option<bool>)

  type Store = map<string, Record>

  /** The state of a user the store knows nothing about. */
  function Fresh(): (s: State)
    ensures s.messages == [] && !s.leadCaptured
    ensures MissingFields(s.userInfo) == Required
    ensures RouteIntent(s) == GreeterNode
  {
    State([], "", map[], false)
  }

  /** Only human and AI messages. */
  predicate Conversational(ms: seq<Message>) {
    forall i :: 0 <= i < |ms| ==> !ms[i].Other?
  }

  /** The human and AI messages of a history, in order. */
  function Kept(ms: seq<Message>): (r: seq<Message>)
    ensures Conversational(r)
    ensures |r| <= |ms|
  {
    if |ms| == 0 then []
    else
      var last := ms[|ms| - 1];
      Kept(ms[..|ms| - 1]) + (if last.Other? then [] else [last])
  }

  /** A history without other messages keeps all of them. */
  lemma {:induction false} KeptConversational(ms: seq<Message>)
    requires Conversational(ms)
    ensures Kept(ms) == ms
  {
    if |ms| > 0 {
      KeptConversational(ms[..|ms| - 1]);
      assert ms == ms[..|ms| - 1] + [ms[|ms| - 1]];
    }
  }

  /** One message as the save loop writes it, if it writes it at all. */
  function EncodeMessage(m: Message): seq<StoredMessage> {
    match m
    case Human(c) => [StoredMessage("human", c)]
    case Ai(c) => [StoredMessage("ai", c)]
    case Other(_) => []
  }

  /** One stored entry as the load loop rebuilds it; other tags are skipped. */
  function DecodeMessage(m: StoredMessage): seq<Message> {
    if m.kind == "human" then [Human(m.content)]
    else if m.kind == "ai" then [Ai(m.content)]
    else []
  }

  /** The save loop over the history. */
  function EncodeMessages(ms: seq<Message>): (r: seq<StoredMessage>)
    ensures |r| <= |ms|
    ensures forall i :: 0 <= i < |r| ==> r[i].kind == "human" || r[i].kind == "ai"
  {
    if |ms| == 0 then []
    else EncodeMessages(ms[..|ms| - 1]) + EncodeMessage(ms[|ms| - 1])
  }

  /** The load loop over the stored entries. */
  function DecodeMessages(stored: seq<StoredMessage>): (r: seq<Message>)
    ensures |r| <= |stored|
    ensures Conversational(r)
  {
    if |stored| == 0 then []
    else DecodeMessages(stored[..|stored| - 1]) + DecodeMessage(stored[|stored| - 1])
  }

  /** Loading appends entry by entry. */
  lemma DecodeAppend(stored: seq<StoredMessage>, more: seq<StoredMessage>)
    requires |more| <= 1
    ensures DecodeMessages(stored + more) ==
            DecodeMessages(stored) + (if |more| == 0 then [] else DecodeMessage(more[0]))
  {
    if |more| == 1 {
      assert (stored + more)[..|stored + more| - 1] == stored;
    } else {
      assert stored + more == stored;
    }
  }

  /** Loading what was saved gives back the human and AI messages, in order,
      with their contents. */
  lemma {:induction false} DecodeEncodeMessages(ms: seq<Message>)
    ensures DecodeMessages(EncodeMessages(ms)) == Kept(ms)
  {
    if |ms| > 0 {
      var init, last := ms[..|ms| - 1], ms[|ms| - 1];
      DecodeEncodeMessages(init);
      DecodeAppend(EncodeMessages(init), EncodeMessage(last));
    }
  }

  /** Entries with a tag other than "human" or "ai" are skipped on load. */
  lemma DecodeSkipsUnknown(stored: seq<StoredMessage>, kind: string, content: string)
    requires kind != "human" && kind != "ai"
    ensures DecodeMessages(stored + [StoredMessage(kind, content)]) == DecodeMessages(stored)
  {
    DecodeAppend(stored, [StoredMessage(kind, content)]);
  }

  /** Messages other than human and AI ones are not written. */
  lemma EncodeDropsOther(ms: seq<Message>, content: string)
    ensures EncodeMessages(ms + [Other(content)]) == EncodeMessages(ms)
  {
    assert (ms + [Other(content)])[..|ms|] == ms;
  }

  /** `save_user_state`'s document: all four fields, always written. */
  function Encode(s: State): (r: Record)
    ensures r.Doc? && r.messages.Some? && r.userInfo.Some? && r.intents.Some? && r.leadCaptured.Some?
  {
    Doc(Some(EncodeMessages(s.messages)), Some(s.userInfo), Some(s.intents), Some(s.leadCaptured))
  }

  /** `get_user_state` once a value was found: an empty value means a fresh
      state, a document has its messages rebuilt and its absent fields read
      with the defaults the code applies when it uses them. */
  function Decode(r: Record): (s: State)
    ensures Conversational(s.messages)
    ensures r.Blank? ==> s == Fresh()
    ensures r.Doc? ==> s.userInfo == Or(r.userInfo, map[]) && s.intents == Or(r.intents, "")
                       && s.leadCaptured == Or(r.leadCaptured, false)
  {
    match r
    case Blank => Fresh()
    case Doc(messages, userInfo, intents, leadCaptured) =>
      State(DecodeMessages(Or(messages, [])), Or(intents, ""), Or(userInfo, map[]), Or(leadCaptured, false))
  }

  /** Decoding an encoded state loses only the messages that are neither
      human nor AI. */
  lemma DecodeEncode(s: State)
    ensures Decode(Encode(s)) == s.(messages := Kept(s.messages))
  {
    DecodeEncodeMessages(s.messages);
  }

  /** For a conversation of human and AI messages the codec is lossless. */
  lemma RoundTrip(s: State)
    requires Conversational(s.messages)
    ensures Decode(Encode(s)) == s
  {
    DecodeEncode(s);
    KeptConversational(s.messages);
  }

  /** A document without any of the four fields reads as a fresh state. */
  lemma EmptyDocIsFresh()
    ensures Decode(Doc(None, None, None, None)) == Fresh()
  {
  }

  /** `get_user_state`. */
  function GetState(store: Store, userId: string): (s: State)
    ensures Key(userId) !in store ==> s == Fresh()
    ensures Conversational(s.messages)
  {
    if Key(userId) in store then Decode(store[Key(userId)]) else Fresh()
  }

  /** `save_user_state`: writes this user's key and no other. */
  function Save(store: Store, userId: string, s: State): (r: Store)
    ensures Key(userId) in r && r[Key(userId)] == Encode(s)
    ensures forall k :: k != Key(userId) ==> (k in r <==> k in store)
    ensures forall k :: k != Key(userId) && k in store ==> r[k] == store[k]
  {
    store[Key(userId) := Encode(s)]
  }

  /** `clear_user_state`: removes this user's key and no other. */
  function Clear(store: Store, userId: string): (r: Store)
    ensures Key(userId) !in r
    ensures forall k :: k != Key(userId) ==> (k in r <==> k in store)
    ensures forall k :: k != Key(userId) && k in store ==> r[k] == store[k]
  {
    store - {Key(userId)}
  }

  /** Loading right after saving gives the saved state back. */
  lemma GetAfterSave(store: Store, userId: string, s: State)
    requires Conversational(s.messages)
    ensures GetState(Save(store, userId, s), userId) == s
  {
    RoundTrip(s);
  }

  /** Saving or clearing one user leaves every other user's state as it was. */
  lemma OtherUsersUntouched(store: Store, userId: string, other: string, s: State)
    requires other != userId
    ensures GetState(Save(store, userId, s), other) == GetState(store, other)
    ensures GetState(Clear(store, userId), other) == GetState(store, other)
  {
    if Key(other) == Key(userId) {
      KeyInjective(other, userId);
    }
  }

  /** After clearing, the user starts afresh. */
  lemma GetAfterClear(store: Store, userId: string)
    ensures GetState(Clear(store, userId), userId) == Fresh()
  {
  }

  /** What an endpoint answers together with the store it leaves behind. */
  datatype Outcome<R> = Outcome(result: R, store: Store)

  datatype ChatResult =
    | BadRequest(detail: string)
    | ServerError
    | ChatReply(userId: string, response: string, leadCaptured: bool)

  /** A request field is usable when it is present and not empty. */
  predicate Given(field: Option<string>) {
    field.Some? && |field.value| > 0
  }

  /** The state a turn starts from: the stored one plus the new message. */
  function Incoming(store: Store, userId: string, message: string): (s: State)
    ensures s.messages == GetState(store, userId).messages + [Human(message)]
    ensures Conversational(s.messages)
    ensures var stored := GetState(store, userId);
            && s.userInfo == stored.userInfo
            && s.intents == stored.intents
            && s.leadCaptured == stored.leadCaptured
  {
    var s := GetState(store, userId);
    s.(messages := s.messages + [Human(message)])
  }

  /** `POST /chat`. A failing turn surfaces as a server error before
      anything is saved. */
  function Chat(store: Store, userId: Option<string>, message: Option<string>,
                classifier: Try<string>, handler: Try<string>,
                loads: string -> Option<Json>): (out: Outcome<ChatResult>)
    ensures out.result.BadRequest? <==> !Given(userId) || !Given(message)
    ensures out.result.BadRequest? ==> out.result.detail == "user_id and message required"
    ensures !out.result.ChatReply? ==> out.store == store
    ensures out.result.ChatReply? ==> out.result.userId == userId.value
    ensures Given(userId) && Given(message)
            && Turn(Incoming(store, userId.value, message.value), classifier, handler, loads).Raised? ==>
              out == Outcome(ServerError, store)
  {
    if !Given(userId) || !Given(message) then
      Outcome(BadRequest("user_id and message required"), store)
    else
      var id := userId.value;
      match Turn(Incoming(store, id, message.value), classifier, handler, loads)
      case Raised => Outcome(ServerError, store)
      case Returned(output) =>
        var last := output.messages[|output.messages| - 1];
        Outcome(ChatReply(id, last.content, output.leadCaptured), Save(store, id, output))
  }

  /** Adding a human or AI message keeps a history conversational. */
  lemma ConversationalExtend(a: seq<Message>, b: seq<Message>)
    requires Conversational(a)
    requires |b| == |a| + 1 && b[..|a|] == a && !b[|a|].Other?
    ensures Conversational(b)
  {
    forall i | 0 <= i < |a| ensures !b[i].Other? {
      assert b[i] == b[..|a|][i];
    }
  }

  /** A turn's history is the stored one, the user's message and the reply. */
  lemma TurnHistory(stored: seq<Message>, message: string, out: seq<Message>)
    requires |out| == |stored| + 2
    requires out[..|stored| + 1] == stored + [Human(message)]
    ensures out == stored + [Human(message), out[|out| - 1]]
  {
    assert out == out[..|stored| + 1] + [out[|stored| + 1]];
  }

  /** A successful chat stores exactly the state the turn produced, whose
      history is the stored one, the user's message and the reply. */
  lemma ChatPersistsTurn(store: Store, userId: string, message: string,
                         classifier: Try<string>, handler: Try<string>,
                         loads: string -> Option<Json>)
    requires |userId| > 0 && |message| > 0
    requires Turn(Incoming(store, userId, message), classifier, handler, loads).Returned?
    ensures var output := Turn(Incoming(store, userId, message), classifier, handler, loads).value;
            && GetState(Chat(store, Some(userId), Some(message), classifier, handler, loads).store, userId) == output
            && output.messages == GetState(store, userId).messages + [Human(message), output.messages[|output.messages| - 1]]
            && Chat(store, Some(userId), Some(message), classifier, handler, loads).result ==
               ChatReply(userId, output.messages[|output.messages| - 1].content, output.leadCaptured)
  {
    var before := Incoming(store, userId, message);
    var output := Turn(before, classifier, handler, loads).value;
    ChatSaves(store, userId, message, classifier, handler, loads, output);
    ConversationalExtend(before.messages, output.messages);
    GetAfterSave(store, userId, output);
    TurnHistory(GetState(store, userId).messages, message, output.messages);
  }

  /** A chat whose turn returns replies with the last message and saves the
      turn's output. */
  lemma ChatSaves(store: Store, userId: string, message: string,
                  classifier: Try<string>, handler: Try<string>,
                  loads: string -> Option<Json>, output: State)
    requires |userId| > 0 && |message| > 0
    requires Turn(Incoming(store, userId, message), classifier, handler, loads) == Returned(output)
    requires |output.messages| > 0
    ensures Chat(store, Some(userId), Some(message), classifier, handler, loads) ==
            Outcome(ChatReply(userId, output.messages[|output.messages| - 1].content, output.leadCaptured),
                    Save(store, userId, output))
  {
  }

  datatype ResetResult = ResetRejected(detail: string) | Cleared(message: string)

  /** `POST /chat/reset`. */
  function ResetChat(store: Store, userId: Option<string>): (out: Outcome<ResetResult>)
    ensures out.result.ResetRejected? <==> !Given(userId)
    ensures out.result.ResetRejected? ==> out.store == store && out.result.detail == "user_id required"
    ensures out.result.Cleared? ==>
              && out.result.message == "State cleared for " + userId.value
              && GetState(out.store, userId.value) == Fresh()
              && forall other :: other != userId.value ==> GetState(out.store, other) == GetState(store, other)
  {
    if !Given(userId) then Outcome(ResetRejected("user_id required"), store)
    else
      var id := userId.value;
      forall other | other != id ensures GetState(Clear(store, id), other) == GetState(store, other) {
        OtherUsersUntouched(store, id, other, Fresh());
      }
      Outcome(Cleared("State cleared for " + id), Clear(store, id))
  }

  const ResetWords: seq<string> := ["reset", "restart", "start over"]
  const ResetReply := "Conversation reset! How can I help you today?"
  const Apology := "Sorry, something went wrong. Please try again."
  const ChannelPrefix := "whatsapp:"

  /** The user id of a WhatsApp sender: every channel prefix removed, then
      the whitespace around it. */
  function SenderId(from: string): (id: string)
    ensures |id| <= |from|
    ensures |id| == 0 || (!IsSpace(id[0]) && !IsSpace(id[|id| - 1]))
  {
    Strip(RemoveAll(from, ChannelPrefix))
  }

  /** A sender address written as prefix and number maps to the number. */
  lemma SenderIdOfAddress(number: string)
    requires !Contains(number, ChannelPrefix)
    requires |number| == 0 || (!IsSpace(number[0]) && !IsSpace(number[|number| - 1]))
    ensures SenderId(ChannelPrefix + number) == number
  {
    RemoveAllLeading(ChannelPrefix, number);
    RemoveAllAbsent(number, ChannelPrefix);
    StripUnpadded(number);
  }

  /** Spaces before the prefix are trimmed once the prefix is gone. */
  lemma SenderIdPadded()
    ensures SenderId(" " + ChannelPrefix + "+1") == "+1"
  {
    var s := " " + ChannelPrefix + "+1";
    assert !OccursAt(s, ChannelPrefix, 0) by {
      OccursSits(s, ChannelPrefix, 0);
      assert s[0] != ChannelPrefix[0];
    }
    OccursSits(s, ChannelPrefix, 1);
    RemoveAllFirst(s, ChannelPrefix, 1);
    assert s[..1] == " ";
    assert s[10..] == "+1";
    RemoveAllAbsent("+1", ChannelPrefix);
    var t := " " + "+1";
    assert SkipSpace(t, 0) == 1;
    assert t[1..] == "+1";
    StripUnpadded("+1");
    assert RStrip("+1") == "+1";
  }

  /** Every occurrence of the prefix goes, not only a leading one. */
  lemma SenderIdRepeated()
    ensures SenderId(ChannelPrefix + "+1" + ChannelPrefix) == "+1"
  {
    var rest := "+1" + ChannelPrefix;
    assert ChannelPrefix + "+1" + ChannelPrefix == ChannelPrefix + rest;
    RemoveAllLeading(ChannelPrefix, rest);
    forall k | 0 <= k < 2 ensures !OccursAt(rest, ChannelPrefix, k) {
      OccursSits(rest, ChannelPrefix, k);
      assert rest[k] != ChannelPrefix[0];
    }
    OccursSits(rest, ChannelPrefix, 2);
    RemoveAllFirst(rest, ChannelPrefix, 2);
    assert rest[..2] == "+1";
    assert rest[11..] == [];
    StripUnpadded("+1");
  }

  /** `text` spells `word` when ASCII capitals are read as small letters. */
  predicate SpellsIgnoringCase(text: string, word: string) {
    |text| == |word| && forall k :: 0 <= k < |word| ==> LowerChar(text[k]) == word[k]
  }

  lemma LowerSpells(text: string, word: string)
    ensures Lower(text) == word <==> SpellsIgnoringCase(text, word)
  {
    if SpellsIgnoringCase(text, word) {
      assert Lower(text) == word;
    }
  }

  /** The message body counts as a reset command: once trimmed, it spells
      one of the three reset words in any mix of capitals. */
  function IsResetCommand(body: string): (r: bool)
    ensures r <==> || SpellsIgnoringCase(Strip(body), "reset")
                   || SpellsIgnoringCase(Strip(body), "restart")
                   || SpellsIgnoringCase(Strip(body), "start over")
  {
    LowerSpells(Strip(body), "reset");
    LowerSpells(Strip(body), "restart");
    LowerSpells(Strip(body), "start over");
    Lower(Strip(body)) in ResetWords
  }

  /** `POST /webhook/whatsapp`: the text of the reply and the new store. A
      reset command clears the sender's state without a turn; a turn that
      raises is answered with an apology and nothing is saved. */
  function Webhook(store: Store, from: string, body: string,
                   classifier: Try<string>, handler: Try<string>,
                   loads: string -> Option<Json>): (out: Outcome<string>)
    ensures IsResetCommand(body) ==>
              out == Outcome(ResetReply, Clear(store, SenderId(from)))
    ensures !IsResetCommand(body) &&
            Turn(Incoming(store, SenderId(from), Strip(body)), classifier, handler, loads).Raised? ==>
              out == Outcome(Apology, store)
  {
    var userId := SenderId(from);
    var message := Strip(body);
    if Lower(message) in ResetWords then
      Outcome(ResetReply, Clear(store, userId))
    else
      match Turn(Incoming(store, userId, message), classifier, handler, loads)
      case Raised => Outcome(Apology, store)
      case Returned(output) =>
        Outcome(output.messages[|output.messages| - 1].content, Save(store, userId, output))
  }

  /** A message that is not a reset command runs one turn; when it
      succeeds the reply is the turn's last message and the sender's stored
      state is the turn's output. */
  lemma WebhookPersistsTurn(store: Store, from: string, body: string,
                            classifier: Try<string>, handler: Try<string>,
                            loads: string -> Option<Json>)
    requires !IsResetCommand(body)
    requires Turn(Incoming(store, SenderId(from), Strip(body)), classifier, handler, loads).Returned?
    ensures var output := Turn(Incoming(store, SenderId(from), Strip(body)), classifier, handler, loads).value;
            && Webhook(store, from, body, classifier, handler, loads).result ==
               output.messages[|output.messages| - 1].content
            && GetState(Webhook(store, from, body, classifier, handler, loads).store, SenderId(from)) == output
  {
    var before := Incoming(store, SenderId(from), Strip(body));
    var output := Turn(before, classifier, handler, loads).value;
    ConversationalExtend(before.messages, output.messages);
    GetAfterSave(store, SenderId(from), output);
  }

  /** A reset command never reaches the workflow: whatever the model would
      answer, the outcome is the same. */
  lemma ResetIgnoresModel(store: Store, from: string, body: string,
                          c1: Try<string>, h1: Try<string>, c2: Try<string>, h2: Try<string>,
                          loads: string -> Option<Json>)
    requires IsResetCommand(body)
    ensures Webhook(store, from, body, c1, h1, loads) == Webhook(store, from, body, c2, h2, loads)
    ensures GetState(Webhook(store, from, body, c1, h1, loads).store, SenderId(from)) == Fresh()
  {
  }

  /** Spaces and capitals around a reset word still reset. */
  lemma PaddedResetCommand()
    ensures IsResetCommand(" RESET\n")
  {
    assert SkipSpace(" RESET\n", 0) == 1;
    assert BackSpace(" RESET\n"[1..], 6) == 5;
    assert Strip(" RESET\n") == "RESET";
    assert Lower("RESET") == "reset";
  }

  /** The message after a reset is handled as the first of a new
      conversation. */
  lemma ResetThenStartAfresh(store: Store, from: string, reset: string, body: string,
                             classifier: Try<string>, handler: Try<string>,
                             loads: string -> Option<Json>)
    requires IsResetCommand(reset)
    ensures var cleared := Webhook(store, from, reset, classifier, handler, loads).store;
            Incoming(cleared, SenderId(from), Strip(body)).messages == [Human(Strip(body))]
  {
  }
}

=== FILE: common.dfy ===
/** Small wrapper types shared by every module of the model. */
module Common {

  /** A value that may be absent: a missing dictionary key, a failed parse. */
  datatype Option<+T> = None | Some(value: T)

  /** The outcome of a call that may raise an exception: a model call, a
      workflow turn. `Raised` carries no payload because every caller in the
      system either lets the exception through or replaces it by a fixed
      reply. */
  datatype Try<+T> = Returned(value: T) | Raised
}

=== FILE: email.dfy ===
/** The e-mail format check of the lead form (`is_valid_email`). It is a
    literal rule rather than an address parser: exactly one `@`, and a domain
    part that holds a dot and is longer than two characters. The local part is
    not looked at. */
module Email {
  import opened Text

  /** `is_valid_email`, step by step as the source writes it. */
  function IsValidEmail(email: string): (ok: bool)
    ensures ok ==> Count(email, '@') == 1
  {
    if '@' !in email then false
    else
      var parts := Split(email, '@');
      if |parts| != 2 then false
      else
        var domain := parts[1];
        '.' in domain && |domain| > 2
  }

  /** A text without `@` is rejected. */
  lemma RejectsWithoutAt(email: string)
    requires '@' !in email
    ensures !IsValidEmail(email)
  {
  }

  /** Two or more `@` split into three or more parts and are rejected. */
  lemma RejectsSeveralAts(email: string)
    requires Count(email, '@') >= 2
    ensures !IsValidEmail(email)
  {
  }

  /** With exactly one `@`, the verdict depends on the domain alone: it must
      contain a dot and be longer than two characters. */
  lemma {:induction false} OneAtVerdict(local: string, domain: string)
    requires '@' !in local && '@' !in domain
    ensures IsValidEmail(local + "@" + domain) <==> ('.' in domain && |domain| > 2)
  {
    var email := local + "@" + domain;
    assert email[|local|] == '@';
    assert local + "@" + domain == local + ['@'] + domain;
    SplitOnce(local, '@', domain);
  }

  /** An empty local part is fine: only the domain is checked. */
  lemma AcceptsEmptyLocal()
    ensures IsValidEmail("@b.c")
  {
    assert "" + "@" + "b.c" == "@b.c";
    OneAtVerdict("", "b.c");
  }

  /** A three-character domain holding a dot is long enough. */
  lemma AcceptsShortDomain()
    ensures IsValidEmail("a@b.c")
  {
    assert "a" + "@" + "b.c" == "a@b.c";
    OneAtVerdict("a", "b.c");
  }

  /** A two-character domain is too short even with a dot. */
  lemma RejectsTwoCharDomain()
    ensures !IsValidEmail("a@.c")
  {
    assert "a" + "@" + ".c" == "a@.c";
    OneAtVerdict("a", ".c");
  }

  /** A domain without a dot is refused. */
  lemma RejectsDotlessDomain()
    ensures !IsValidEmail("a@bc")
  {
    assert "a" + "@" + "bc" == "a@bc";
    OneAtVerdict("a", "bc");
  }

  /** Two `@` are refused whatever the domain looks like. */
  lemma RejectsTwoAts()
    ensures !IsValidEmail("a@b@c.com")
  {
    assert Count("a@b@c.com", '@') == 2;
  }
}

=== FILE: extraction.dfy ===
/** Selection of the JSON text inside a model reply (`extract_json` before
    `json.loads`). Two regular expressions are applied in turn; each is
    written here as the hand-made matcher it amounts to.

    The fenced-block pattern ```` ```(?:json)?\s*([\s\S]*?)\s*``` ```` matches
    at the first "```" of the reply whenever another "```" starts at least
    three characters later, and captures the text between the opening (and an
    optional `json` tag) and the next "```", with the surrounding whitespace
    removed.

    The object pattern `\{[\s\S]*\}` matches from the first `{` to the last
    `}` when that `}` comes after it. */
module Extraction {
  import opened Common
  import opened Text

  const Fence := "```"
  const Tag := "json"

  /** The reply holds two non-overlapping fence markers, the condition under
      which the fenced-block pattern matches at all. */
  ghost predicate TwoFences(text: string) {
    exists i: nat, j: nat :: OccursAt(text, Fence, i) && OccursAt(text, Fence, j) && i + 3 <= j
  }

  /** A fence marker is three backticks. */
  lemma FenceChars(text: string, k: nat, m: nat)
    requires OccursAt(text, Fence, k)
    requires k <= m < k + 3
    ensures text[m] == '`'
  {
    assert text[k..k + 3][m - k] == text[m];
  }

  /** `body` is what the fenced-block pattern captures when the first marker
      is at `open` and `close` is the first marker starting at least three
      characters later: the text between the two, after the optional tag,
      with the whitespace on both sides removed. */
  ghost predicate CapturedBetween(text: string, open: nat, close: nat, body: string) {
    && OccursAt(text, Fence, open)
    && (forall k :: 0 <= k < open ==> !OccursAt(text, Fence, k))
    && open + 3 <= close
    && OccursAt(text, Fence, close)
    && (forall k :: open + 3 <= k < close ==> !OccursAt(text, Fence, k))
    && var p := if OccursAt(text, Tag, open + 3) then open + 7 else open + 3;
       && p <= close
       && exists m :: && p <= m && m + |body| <= close
                      && text[m..m + |body|] == body
                      && AllSpace(text[p..m])
                      && AllSpace(text[m + |body|..close])
  }

  /** Group 1 of the fenced-block pattern, if it matches. */
  function FenceBody(text: string): (r: Option<string>)
    ensures r.None? <==> !TwoFences(text)
    ensures r.Some? ==> exists open, close :: CapturedBetween(text, open, close, r.value)
    ensures r.Some? ==> |r.value| == 0 || (!IsSpace(r.value[0]) && !IsSpace(r.value[|r.value| - 1]))
    ensures r.Some? ==> !Contains(r.value, Fence)
    ensures r.Some? ==> exists m: nat :: OccursAt(text, r.value, m)
  {
    match Find(text, Fence, 0)
    case None => None
    case Some(open) =>
      var p := if OccursAt(text, Tag, open + 3) then open + 7 else open + 3;
      var w := SkipSpace(text, p);
      match Find(text, Fence, w)
      case None =>
        NoClosingFence(text, open, p, w);
        None
      case Some(close) =>
        var body := RStrip(text[w..close]);
        BodyHasNoFence(text, w, close, |body|);
        Captured(text, open, p, w, close, body);
        Some(body)
  }

  /** The stripped text between the whitespace after the opening (and tag)
      and the next marker is what the pattern captures. */
  lemma Captured(text: string, open: nat, p: nat, w: nat, close: nat, body: string)
    requires OccursAt(text, Fence, open)
    requires forall k :: 0 <= k < open ==> !OccursAt(text, Fence, k)
    requires p == if OccursAt(text, Tag, open + 3) then open + 7 else open + 3
    requires OccursAt(text, Fence, close)
    requires p <= w <= close && AllSpace(text[p..w])
    requires forall k :: w <= k < close ==> !OccursAt(text, Fence, k)
    requires body == RStrip(text[w..close])
    ensures CapturedBetween(text, open, close, body)
    ensures OccursAt(text, body, w)
  {
    forall k | open + 3 <= k < w ensures !OccursAt(text, Fence, k) {
      if OccursAt(text, Fence, k) {
        NoBacktickInGap(text, open, p, w, k);
        FenceChars(text, k, k);
      }
    }
    assert text[w..close][|body|..] == text[w + |body|..close];
    assert body == text[w..w + |body|];
  }

  /** When no marker follows the whitespace after the opening, no marker
      follows the opening at all, so no later start can match either. */
  lemma NoClosingFence(text: string, open: nat, p: nat, w: nat)
    requires OccursAt(text, Fence, open)
    requires forall k :: 0 <= k < open ==> !OccursAt(text, Fence, k)
    requires p == open + 3 || (p == open + 7 && OccursAt(text, Tag, open + 3))
    requires p <= w <= |text| && AllSpace(text[p..w])
    requires forall k :: w <= k ==> !OccursAt(text, Fence, k)
    ensures !TwoFences(text)
  {
    if TwoFences(text) {
      var i: nat, j: nat :| OccursAt(text, Fence, i) && OccursAt(text, Fence, j) && i + 3 <= j;
      NoBacktickInGap(text, open, p, w, j);
      FenceChars(text, j, j);
    }
  }

  /** Between the opening marker and the first non-space after it (and the
      tag) there is no backtick. */
  lemma NoBacktickInGap(text: string, open: nat, p: nat, w: nat, j: nat)
    requires p == open + 3 || (p == open + 7 && OccursAt(text, Tag, open + 3))
    requires p <= w <= |text| && AllSpace(text[p..w])
    requires open + 3 <= j < w
    ensures text[j] != '`'
  {
    if j < p {
      assert text[open + 3..open + 7][j - open - 3] == text[j];
    } else {
      assert text[p..w][j - p] == text[j];
    }
  }

  /** The captured text lies before the first closing marker, so it holds none. */
  lemma BodyHasNoFence(text: string, w: nat, close: nat, n: nat)
    requires w + n <= close <= |text|
    requires forall k :: w <= k < close ==> !OccursAt(text, Fence, k)
    ensures !Contains(text[w..close][..n], Fence)
  {
    var body := text[w..close][..n];
    assert body == text[w..w + n];
    ContainsIff(body, Fence);
    forall k: nat ensures !OccursAt(body, Fence, k) {
      if OccursAt(body, Fence, k) {
        OccursShift(text, w, w + n, Fence, k);
      }
    }
  }

  /** The match of the object pattern, if any: first `{` through last `}`. */
  function BraceSpan(text: string): (r: Option<string>)
    ensures r.Some? ==> |r.value| >= 2 && r.value[0] == '{' && r.value[|r.value| - 1] == '}'
  {
    var first := FirstOf(text, '{');
    var last := LastOf(text, '}');
    if first.Some? && last.Some? && first.value < last.value then
      assert text[first.value..last.value + 1][0] == '{';
      Some(text[first.value..last.value + 1])
    else
      None
  }

  /** The object pattern matches iff some `{` comes before some `}`. */
  lemma BraceSpanExists(text: string)
    ensures BraceSpan(text).None? <==>
              !exists i, j :: 0 <= i < j < |text| && text[i] == '{' && text[j] == '}'
  {
    var first := FirstOf(text, '{');
    var last := LastOf(text, '}');
    if first.Some? && last.Some? && first.value >= last.value {
      NoSpanWhenReversed(text, first.value, last.value);
    }
  }

  /** The match starts at the first `{` and ends at the last `}`: no `{`
      precedes it and no `}` follows it. */
  lemma BraceSpanBounds(text: string)
    requires BraceSpan(text).Some?
    ensures var span := BraceSpan(text).value;
            exists i: nat :: && OccursAt(text, span, i)
                             && (forall k :: 0 <= k < i ==> text[k] != '{')
                             && (forall k :: i + |span| <= k < |text| ==> text[k] != '}')
  {
    var i := FirstOf(text, '{').value;
    var j := LastOf(text, '}').value;
    assert BraceSpan(text).value == text[i..j + 1];
    assert OccursAt(text, text[i..j + 1], i);
  }

  /** With the first `{` after the last `}` there is no `{` before any `}`. */
  lemma NoSpanWhenReversed(text: string, first: nat, last: nat)
    requires last <= first < |text|
    requires forall k :: 0 <= k < first ==> text[k] != '{'
    requires forall k :: last < k < |text| ==> text[k] != '}'
    ensures !exists i, j :: 0 <= i < j < |text| && text[i] == '{' && text[j] == '}'
  {
    forall i, j | 0 <= i < j < |text| && text[i] == '{' && text[j] == '}'
      ensures false
    {
    }
  }

  /** `FirstOf` reports the only index that holds `c` with no `c` before it. */
  lemma FirstOfIs(s: string, c: char, i: nat)
    requires i < |s| && s[i] == c
    requires forall k :: 0 <= k < i ==> s[k] != c
    ensures FirstOf(s, c) == Some(i)
  {
  }

  /** `LastOf` reports the only index that holds `c` with no `c` after it. */
  lemma LastOfIs(s: string, c: char, i: nat)
    requires i < |s| && s[i] == c
    requires forall k :: i < k < |s| ==> s[k] != c
    ensures LastOf(s, c) == Some(i)
  {
  }

  /** Every character of `t` outside the place where `x` sits differs from `c`. */
  predicate NoneOutside(t: string, x: string, lo: nat, c: char) {
    forall k :: 0 <= k < |t| && !(lo <= k < lo + |x|) ==> t[k] != c
  }

  /** Surroundings without `c` shift the first `c` by the offset. */
  lemma FirstOfWindow(t: string, x: string, lo: nat, c: char)
    requires SitsAt(t, x, lo) && NoneOutside(t, x, lo, c)
    ensures FirstOf(x, c).Some? ==> FirstOf(t, c) == Some(lo + FirstOf(x, c).value)
    ensures FirstOf(x, c).None? ==> FirstOf(t, c).None?
  {
    match FirstOf(x, c)
    case Some(i) =>
      forall k | 0 <= k < lo + i ensures t[k] != c {
        if k >= lo {
          assert t[lo + (k - lo)] == x[k - lo];
        }
      }
      FirstOfIs(t, c, lo + i);
    case None =>
      forall k | 0 <= k < |t| ensures t[k] != c {
        if lo <= k < lo + |x| {
          assert t[lo + (k - lo)] == x[k - lo];
        }
      }
  }

  /** Surroundings without `c` shift the last `c` by the offset. */
  lemma LastOfWindow(t: string, x: string, lo: nat, c: char)
    requires SitsAt(t, x, lo) && NoneOutside(t, x, lo, c)
    ensures LastOf(x, c).Some? ==> LastOf(t, c) == Some(lo + LastOf(x, c).value)
    ensures LastOf(x, c).None? ==> LastOf(t, c).None?
  {
    match LastOf(x, c)
    case Some(i) =>
      forall k | lo + i < k < |t| ensures t[k] != c {
        if k < lo + |x| {
          assert t[lo + (k - lo)] == x[k - lo];
        }
      }
      LastOfIs(t, c, lo + i);
    case None =>
      forall k | 0 <= k < |t| ensures t[k] != c {
        if lo <= k < lo + |x| {
          assert t[lo + (k - lo)] == x[k - lo];
        }
      }
  }

  /** The span is fixed by the positions of the first `{` and the last `}`. */
  lemma BraceSpanAt(text: string, i: nat, j: nat)
    requires FirstOf(text, '{') == Some(i) && LastOf(text, '}') == Some(j) && i < j
    ensures BraceSpan(text) == Some(text[i..j + 1])
  {
  }

  /** Text without braces around `x` does not move the object span: it is
      the span of `x`. */
  lemma BraceSpanWindow(t: string, x: string, lo: nat)
    requires SitsAt(t, x, lo)
    requires NoneOutside(t, x, lo, '{') && NoneOutside(t, x, lo, '}')
    ensures BraceSpan(t) == BraceSpan(x)
  {
    FirstOfWindow(t, x, lo, '{');
    LastOfWindow(t, x, lo, '}');
    var fx, lx := FirstOf(x, '{'), LastOf(x, '}');
    if fx.Some? && lx.Some? && fx.value < lx.value {
      SliceAt(t, x, lo, fx.value, lx.value + 1);
    }
    SpanFromEnds(t, x, lo);
  }

  /** When the first `{` and the last `}` of `t` are those of `x`, shifted
      by `lo`, and enclose the same piece, the object spans agree. */
  lemma SpanFromEnds(t: string, x: string, lo: nat)
    requires FirstOf(x, '{').Some? ==> FirstOf(t, '{') == Some(lo + FirstOf(x, '{').value)
    requires FirstOf(x, '{').None? ==> FirstOf(t, '{').None?
    requires LastOf(x, '}').Some? ==> LastOf(t, '}') == Some(lo + LastOf(x, '}').value)
    requires LastOf(x, '}').None? ==> LastOf(t, '}').None?
    requires var fx, lx := FirstOf(x, '{'), LastOf(x, '}');
             fx.Some? && lx.Some? && fx.value < lx.value ==>
               lo + lx.value + 1 <= |t| && lx.value + 1 <= |x| &&
               t[lo + fx.value..lo + lx.value + 1] == x[fx.value..lx.value + 1]
    ensures BraceSpan(t) == BraceSpan(x)
  {
    var fx, lx := FirstOf(x, '{'), LastOf(x, '}');
    if fx.Some? && lx.Some? && fx.value < lx.value {
      var a, b := fx.value, lx.value;
      SameSpan(t, x, lo + a, lo + b, a, b);
    } else {
      NoSpanEither(t, x, lo);
    }
  }

  /** Two texts whose first `{` and last `}` enclose the same piece have the
      same object span. */
  lemma SameSpan(t: string, x: string, i: nat, j: nat, a: nat, b: nat)
    requires FirstOf(t, '{') == Some(i) && LastOf(t, '}') == Some(j) && i < j
    requires FirstOf(x, '{') == Some(a) && LastOf(x, '}') == Some(b) && a < b
    requires t[i..j + 1] == x[a..b + 1]
    ensures BraceSpan(t) == BraceSpan(x)
  {
    BraceSpanAt(x, a, b);
    BraceSpanAt(t, i, j);
  }

  /** Without a `{` before a `}` in `x`, shifted ends give none in `t` either. */
  lemma NoSpanEither(t: string, x: string, lo: nat)
    requires FirstOf(x, '{').Some? ==> FirstOf(t, '{') == Some(lo + FirstOf(x, '{').value)
    requires FirstOf(x, '{').None? ==> FirstOf(t, '{').None?
    requires LastOf(x, '}').Some? ==> LastOf(t, '}') == Some(lo + LastOf(x, '}').value)
    requires LastOf(x, '}').None? ==> LastOf(t, '}').None?
    requires !(FirstOf(x, '{').Some? && LastOf(x, '}').Some? && FirstOf(x, '{').value < LastOf(x, '}').value)
    ensures BraceSpan(t).None? && BraceSpan(x).None?
  {
  }

  /** The text handed to `json.loads`: the fenced body if there is one, then
      the object span inside it if there is one. */
  function Candidate(reply: string): (c: string)
    ensures Contains(reply, c)
    ensures FenceBody(reply).None? && BraceSpan(reply).None? ==> c == reply
    ensures FenceBody(reply).Some? && BraceSpan(FenceBody(reply).value).None? ==>
              c == FenceBody(reply).value
  {
    var text := match FenceBody(reply) case Some(b) => b case None => reply;
    var c := match BraceSpan(text) case Some(span) => span case None => text;
    CandidateIsPiece(reply, text, c);
    c
  }

  /** The candidate is a piece of the reply: the body is one, and the span
      is a piece of the body. */
  lemma CandidateIsPiece(reply: string, text: string, c: string)
    requires text == match FenceBody(reply) case Some(b) => b case None => reply
    requires c == match BraceSpan(text) case Some(span) => span case None => text
    ensures Contains(reply, c)
  {
    var at: nat := 0;
    if FenceBody(reply).Some? {
      at :| OccursAt(reply, text, at);
    } else {
      assert reply[0..|reply|] == reply;
    }
    var bt: nat := 0;
    if BraceSpan(text).Some? {
      BraceSpanBounds(text);
      bt :| OccursAt(text, c, bt);
    } else {
      assert text[0..|text|] == text;
    }
    OccursWithin(reply, text, c, at, bt);
    ContainsIff(reply, c);
  }

  /** Once a fenced block is found, the rest of the reply no longer matters:
      the candidate is the one the block's body alone would give. */
  lemma FencedReducesToBody(reply: string, body: string)
    requires FenceBody(reply) == Some(body)
    ensures Candidate(reply) == Candidate(body)
  {
    ContainsIff(body, Fence);
    assert !TwoFences(body);
  }

  /** A reply with no fence and no `{` before a `}` is handed to the parser
      as it is. */
  lemma PlainTextPassesThrough(reply: string)
    requires !Contains(reply, Fence)
    requires forall i, j :: 0 <= i < j < |reply| ==> !(reply[i] == '{' && reply[j] == '}')
    ensures Candidate(reply) == reply
  {
    NoFenceNoBody(reply);
    BraceSpanExists(reply);
  }

  /** `a + b` holds `a` at the start and `b` right after it. */
  lemma SitsInConcat(a: string, b: string)
    ensures SitsAt(a + b, a, 0) && SitsAt(a + b, b, |a|)
  {
  }

  /** A piece of a piece sits in the whole, offsets added. */
  lemma SitsWithin(t: string, x: string, i: nat, y: string, j: nat)
    requires SitsAt(t, x, i) && SitsAt(x, y, j)
    ensures SitsAt(t, y, i + j)
  {
    forall k | 0 <= k < |y| ensures t[i + j + k] == y[k] {
      assert x[j + k] == y[k];
      assert t[i + (j + k)] == x[j + k];
    }
  }

  /** Where each part of a fenced, tagged wrapping of `s` lies. */
  lemma WrapLayout(s: string, ws1: string, ws2: string)
    ensures var t := Fence + Tag + ws1 + s + ws2 + Fence;
            var c := 7 + |ws1| + |s| + |ws2|;
            && |t| == c + 3
            && SitsAt(t, Fence, 0) && SitsAt(t, Tag, 3) && SitsAt(t, ws1, 7)
            && SitsAt(t, s, 7 + |ws1|) && SitsAt(t, ws2, 7 + |ws1| + |s|)
            && SitsAt(t, Fence, c)
  {
    var p1 := Fence + Tag;
    var p2 := p1 + ws1;
    var p3 := p2 + s;
    var p4 := p3 + ws2;
    var t := p4 + Fence;
    SitsInConcat(p4, Fence);
    SitsInConcat(p3, ws2);
    SitsInConcat(p2, s);
    SitsInConcat(p1, ws1);
    SitsInConcat(Fence, Tag);
    SitsWithin(t, p4, 0, p3, 0);
    SitsWithin(t, p3, 0, p2, 0);
    SitsWithin(t, p2, 0, p1, 0);
    SitsWithin(t, p4, 0, ws2, |p3|);
    SitsWithin(t, p3, 0, s, |p2|);
    SitsWithin(t, p2, 0, ws1, |p1|);
    SitsWithin(t, p1, 0, Fence, 0);
    SitsWithin(t, p1, 0, Tag, 3);
  }

  /** The markers and the tag hold no brace. */
  lemma FrameHasNoBraces(t: string, c: nat)
    requires |t| == c + 3 && 7 <= c
    requires SitsAt(t, Fence, 0) && SitsAt(t, Tag, 3) && SitsAt(t, Fence, c)
    ensures forall k :: (0 <= k < 7 || c <= k < |t|) ==> t[k] != '{' && t[k] != '}'
  {
    forall k | 0 <= k < 7 || c <= k < |t| ensures t[k] != '{' && t[k] != '}' {
      if k < 3 {
        assert t[0 + k] == Fence[k];
      } else if k < 7 {
        assert t[3 + (k - 3)] == Tag[k - 3];
      } else {
        assert t[c + (k - c)] == Fence[k - c];
      }
    }
  }

  /** The object span of the whole wrapping is that of `s`: the markers,
      the tag and the whitespace hold no brace. */
  lemma WrapSpan(s: string, ws1: string, ws2: string)
    requires AllSpace(ws1) && AllSpace(ws2)
    ensures BraceSpan(Fence + Tag + ws1 + s + ws2 + Fence) == BraceSpan(s)
  {
    var t := Fence + Tag + ws1 + s + ws2 + Fence;
    var a := 7 + |ws1|;
    WrapLayout(s, ws1, ws2);
    OccursSits(t, ws1, 7);
    OccursSits(t, s, a);
    OccursSits(t, ws2, a + |s|);
    BodySpan(t, s, a, a + |s| + |ws2|);
  }

  /** The object span of a fenced block's body is the span of the whole
      reply when all the reply has besides the body is the markers, the tag
      and whitespace. */
  lemma BodySpan(t: string, body: string, m: nat, c: nat)
    requires |t| == c + 3 && 7 <= m && m + |body| <= c
    requires SitsAt(t, Fence, 0) && SitsAt(t, Tag, 3) && SitsAt(t, Fence, c)
    requires t[m..m + |body|] == body
    requires AllSpace(t[7..m]) && AllSpace(t[m + |body|..c])
    ensures BraceSpan(t) == BraceSpan(body)
  {
    FrameHasNoBraces(t, c);
    OccursSits(t, body, m);
    forall k | 0 <= k < |t| && !(m <= k < m + |body|) ensures t[k] != '{' && t[k] != '}' {
      if 7 <= k < m {
        assert t[7..m][k - 7] == t[k];
      } else if m + |body| <= k < c {
        assert t[m + |body|..c][k - m - |body|] == t[k];
      }
    }
    BraceSpanWindow(t, body, m);
  }

  /** Wrapping a JSON object `s` in a fenced block tagged `json` does not
      change what `json.loads` is given, as long as `s` itself holds no fence
      marker and has an object span. */
  lemma {:induction false} FencedWrapSameCandidate(s: string, ws1: string, ws2: string)
    requires AllSpace(ws1) && AllSpace(ws2)
    requires !Contains(s, Fence)
    requires BraceSpan(s).Some?
    requires |ws2| > 0 || s[|s| - 1] != '`'
    ensures Candidate(Fence + Tag + ws1 + s + ws2 + Fence) == Candidate(s)
  {
    var t := Fence + Tag + ws1 + s + ws2 + Fence;
    WrapBodySpan(s, ws1, ws2);
    WrapSpan(s, ws1, ws2);
    NoFenceNoBody(s);
    assert Candidate(t) == BraceSpan(FenceBody(t).value).value;
  }

  /** A text without a fence marker has no fenced block. */
  lemma NoFenceNoBody(s: string)
    requires !Contains(s, Fence)
    ensures FenceBody(s).None?
  {
    ContainsIff(s, Fence);
    assert !TwoFences(s);
  }

  /** The wrapping has a fenced block, and its body has the object span of
      the whole wrapping. */
  lemma WrapBodySpan(s: string, ws1: string, ws2: string)
    requires AllSpace(ws1) && AllSpace(ws2)
    requires !Contains(s, Fence)
    requires |s| > 0 && (|ws2| > 0 || s[|s| - 1] != '`')
    ensures var t := Fence + Tag + ws1 + s + ws2 + Fence;
            FenceBody(t).Some? && BraceSpan(FenceBody(t).value) == BraceSpan(t)
  {
    var t := Fence + Tag + ws1 + s + ws2 + Fence;
    var c := 7 + |ws1| + |s| + |ws2|;
    WrapLayout(s, ws1, ws2);
    forall k | 3 <= k < c ensures !OccursAt(t, Fence, k) {
      NoMarkerInside(s, ws1, ws2, k);
    }
    OnlyOuterMarkers(t, c);
  }

  /** A text made of a tagged opening marker at 0, a closing marker at `c`
      and no marker in between has a fenced block whose body has the object
      span of the whole text. */
  lemma OnlyOuterMarkers(t: string, c: nat)
    requires |t| == c + 3 && 7 <= c
    requires SitsAt(t, Fence, 0) && SitsAt(t, Tag, 3) && SitsAt(t, Fence, c)
    requires forall k :: 3 <= k < c ==> !OccursAt(t, Fence, k)
    ensures FenceBody(t).Some? && BraceSpan(FenceBody(t).value) == BraceSpan(t)
  {
    OccursSits(t, Fence, 0);
    OccursSits(t, Tag, 3);
    OccursSits(t, Fence, c);
    assert TwoFences(t);
    var body := FenceBody(t).value;
    var open, close :| CapturedBetween(t, open, close, body);
    OuterPair(t, c, open, close, body);
    CapturedSpan(t, c, body);
  }

  /** With markers only at 0 and `c`, those are the two the pattern uses. */
  lemma OuterPair(t: string, c: nat, open: nat, close: nat, body: string)
    requires 7 <= c && OccursAt(t, Fence, 0) && OccursAt(t, Fence, c)
    requires forall k :: 3 <= k < c ==> !OccursAt(t, Fence, k)
    requires CapturedBetween(t, open, close, body)
    ensures open == 0 && close == c
  {
    assert open == 0;
  }

  /** The body captured between markers at 0 and `c`, after the tag, has the
      object span of the whole text. */
  lemma CapturedSpan(t: string, c: nat, body: string)
    requires |t| == c + 3 && 7 <= c
    requires SitsAt(t, Fence, 0) && SitsAt(t, Tag, 3) && SitsAt(t, Fence, c)
    requires OccursAt(t, Tag, 3)
    requires CapturedBetween(t, 0, c, body)
    ensures BraceSpan(body) == BraceSpan(t)
  {
    var m :| && 7 <= m && m + |body| <= c
             && t[m..m + |body|] == body
             && AllSpace(t[7..m])
             && AllSpace(t[m + |body|..c]);
    BodySpan(t, body, m, c);
  }

  /** Inside the wrapped text only the two outer markers exist. */
  lemma NoMarkerInside(s: string, ws1: string, ws2: string, k: nat)
    requires AllSpace(ws1) && AllSpace(ws2)
    requires !Contains(s, Fence)
    requires |s| > 0 && (|ws2| > 0 || s[|s| - 1] != '`')
    requires 3 <= k < 7 + |ws1| + |s| + |ws2|
    ensures !OccursAt(Fence + Tag + ws1 + s + ws2 + Fence, Fence, k)
  {
    var t := Fence + Tag + ws1 + s + ws2 + Fence;
    var a := 7 + |ws1|;
    var b := a + |s|;
    var c := b + |ws2|;
    if OccursAt(t, Fence, k) {
      if k < 7 {
        FenceChars(t, k, k);
      } else if k < a {
        FenceChars(t, k, k);
      } else if k + 3 <= b {
        ContainsIff(s, Fence);
        assert t[a..b] == s;
        OccursShift(t, a, b, Fence, k - a);
      } else {
        var q := if k + 2 < c then k + 2 else c - 1;
        FenceChars(t, k, q);
      }
    }
  }
}

=== FILE: graph.dfy ===
/** One run of the compiled workflow: the classifier node, the conditional
    edge chosen by `route_intent`, and one handler node, each node's result
    folded into the state. The two model calls of a turn are inputs:
    `classifier` is the classifier's answer, `handler` the answer the chosen
    handler receives (the retrieval answer for `rag_agent`, the chat answer
    for `greeter`, the extraction answer for `lead_agent`). */
module Graph {
  import opened Common
  import opened Text
  import opened JsonValue
  import opened Intent
  import opened Extraction
  import opened Agents
  import opened LeadAgent

  /** The result of the handler node the router picked. The retrieval and
      greeting nodes both add the model's answer as one AI message. */
  function Handle(node: string, s: State, handler: Try<string>, loads: string -> Option<Json>): (r: Try<Update>)
    requires node in Handlers
    ensures node == LeadNode ==> r == LeadCapture(s.userInfo, handler, loads)
    ensures node != LeadNode ==>
              match handler
              case Raised => r.Raised?
              case Returned(text) => r == Returned(Say([Ai(text)]))
  {
    if node == LeadNode then LeadCapture(s.userInfo, handler, loads)
    else
      match handler
      case Raised => Raised
      case Returned(text) => Returned(Say([Ai(text)]))
  }

  /** `app.invoke(state)`: classify, route, handle. A raising node makes the
      whole run raise. */
  function Turn(s: State, classifier: Try<string>, handler: Try<string>,
                loads: string -> Option<Json>): (r: Try<State>)
    ensures classifier.Raised? ==> r.Raised?
    ensures r.Returned? ==>
              && |r.value.messages| == |s.messages| + 1
              && r.value.messages[..|s.messages|] == s.messages
              && r.value.messages[|s.messages|].Ai?
              && r.value.intents == ClassifyIntent(classifier.value)
              && r.value.intents in Labels
    ensures classifier.Returned? ==>
              var c := Apply(s, Update([], Some(ClassifyIntent(classifier.value)), None, None));
              (r.Raised? <==> Handle(RouteIntent(c), c, handler, loads).Raised?)
  {
    match classifier
    case Raised => Raised
    case Returned(answer) =>
      var classified := Apply(s, Update([], Some(ClassifyIntent(answer)), None, None));
      assert classified.messages == s.messages;
      match Handle(RouteIntent(classified), classified, handler, loads)
      case Raised => Raised
      case Returned(u) => Returned(Apply(classified, u))
  }

  /** The stored labels are already upper case, so the route after
      classification is decided by the classifier's answer alone. */
  lemma RouteAfterClassify(s: State, answer: string)
    requires s.intents == ClassifyIntent(answer)
    ensures RouteIntent(s) == LeadNode <==> Contains(Normalize(answer), Lead)
    ensures RouteIntent(s) == RagNode <==>
              !Contains(Normalize(answer), Lead) && Contains(Normalize(answer), Inquiry)
    ensures RouteIntent(s) == GreeterNode <==>
              !Contains(Normalize(answer), Lead) && !Contains(Normalize(answer), Inquiry)
  {
    UpperKeepsLabel(ClassifyIntent(answer));
  }

  /** Every LEAD turn with a complete record captures the lead again, with
      the same closing message, whether or not it was captured before. */
  lemma LeadRecapturedEveryTurn(s: State, answer: string, handler: Try<string>,
                                loads: string -> Option<Json>,
                                name: string, email: string, platform: string)
    requires Contains(Normalize(answer), Lead)
    requires |name| > 0 && |email| > 0 && |platform| > 0
    requires NameField in s.userInfo && s.userInfo[NameField] == JStr(name)
    requires EmailField in s.userInfo && s.userInfo[EmailField] == JStr(email)
    requires PlatformField in s.userInfo && s.userInfo[PlatformField] == JStr(platform)
    ensures Turn(s, Returned(answer), handler, loads) ==
            Returned(State(s.messages + [Ai(FinalText(name, email, platform))],
                           Lead, s.userInfo, true))
  {
    var classified := Apply(s, Update([], Some(ClassifyIntent(answer)), None, None));
    RouteAfterClassify(classified, answer);
    CompleteInfoCaptures(s.userInfo, handler, loads, name, email, platform);
  }

  /** A failing handler call fails the whole turn, unless the turn is a
      LEAD turn with a complete record, which never calls the model. */
  lemma HandlerFailureRaises(s: State, answer: string, loads: string -> Option<Json>)
    requires !Contains(Normalize(answer), Lead) || |MissingFields(s.userInfo)| > 0
    ensures Turn(s, Returned(answer), Raised, loads).Raised?
  {
    var classified := Apply(s, Update([], Some(ClassifyIntent(answer)), None, None));
    RouteAfterClassify(classified, answer);
  }

  /** A LEAD turn on a complete record with a detail that is not a string
      fails: the capture tool rejects it, whatever the model would say. */
  lemma CaptureFailureRaises(s: State, answer: string, handler: Try<string>,
                             loads: string -> Option<Json>)
    requires Contains(Normalize(answer), Lead)
    requires MissingFields(s.userInfo) == []
    requires !s.userInfo[NameField].JStr? || !s.userInfo[EmailField].JStr?
             || !s.userInfo[PlatformField].JStr?
    ensures Turn(s, Returned(answer), handler, loads).Raised?
  {
    var classified := Apply(s, Update([], Some(ClassifyIntent(answer)), None, None));
    RouteAfterClassify(classified, answer);
    NonStringDetailRaises(s.userInfo, handler, loads);
  }

  /** A LEAD turn that still lacks a detail, whose answer parses with an
      acceptable e-mail (or none) and a string `response_text`, merges what
      was collected into the stored details and adds that text as the reply. */
  lemma LeadTurnMerges(s: State, answer: string, text: string,
                       loads: string -> Option<Json>, ex: Extracted)
    requires Contains(Normalize(answer), Lead)
    requires |MissingFields(s.userInfo)| > 0
    requires ParseReply(text, loads) == Some(ex)
    requires EmailField in ex.collected ==> EmailVerdict(ex.collected[EmailField]) == Returned(true)
    requires ex.responseText.JStr?
    ensures Turn(s, Returned(answer), Returned(text), loads) ==
            Returned(State(s.messages + [Ai(ex.responseText.s)], Lead,
                           s.userInfo + ex.collected, s.leadCaptured))
  {
    var classified := Apply(s, Update([], Some(ClassifyIntent(answer)), None, None));
    RouteAfterClassify(classified, answer);
    CollectingMerges(s.userInfo, text, loads, ex);
  }

  /** A LEAD turn that still lacks a detail never changes the capture flag,
      even when the merge fills in the last missing detail. */
  lemma CollectingKeepsFlag(s: State, answer: string, handler: Try<string>,
                            loads: string -> Option<Json>)
    requires Contains(Normalize(answer), Lead)
    requires |MissingFields(s.userInfo)| > 0
    requires Turn(s, Returned(answer), handler, loads).Returned?
    ensures Turn(s, Returned(answer), handler, loads).value.leadCaptured == s.leadCaptured
  {
    var classified := Apply(s, Update([], Some(ClassifyIntent(answer)), None, None));
    RouteAfterClassify(classified, answer);
  }

  /** Turns that do not reach the lead handler keep the collected details
      and the capture flag, and add the model's answer verbatim. */
  lemma OtherTurnsKeepDetails(s: State, answer: string, text: string, loads: string -> Option<Json>)
    requires !Contains(Normalize(answer), Lead)
    ensures Turn(s, Returned(answer), Returned(text), loads) ==
            Returned(State(s.messages + [Ai(text)], ClassifyIntent(answer), s.userInfo, s.leadCaptured))
  {
    var classified := Apply(s, Update([], Some(ClassifyIntent(answer)), None, None));
    RouteAfterClassify(classified, answer);
  }
}

=== FILE: intent.dfy ===
/** Normalisation of the intent classifier's reply (the part of
    `intent_classifier` after the model call). The model is asked for one
    word; whatever it answers is trimmed, upper-cased and searched for the
    two interesting labels, LEAD first. */
module Intent {
  import opened Common
  import opened Text

  const Lead := "LEAD"
  const Inquiry := "INQUIRY"
  const Greeting := "GREETING"

  /** The three labels the classifier can store in `intents`. */
  const Labels: set<string> := {Lead, Inquiry, Greeting}

  /** The reply as the classifier inspects it: trimmed, then upper-cased. */
  function Normalize(reply: string): (text: string)
    ensures |text| == |Strip(reply)|
    ensures |text| == 0 || (!IsSpace(text[0]) && !IsSpace(text[|text| - 1]))
    ensures forall i :: 0 <= i < |text| ==> !('a' <= text[i] <= 'z')
    ensures forall i :: 0 <= i < |text| ==> text[i] == UpperChar(Strip(reply)[i])
  {
    Upper(Strip(reply))
  }

  /** The label stored in `intents` for a classifier reply. Containing LEAD
      wins over containing INQUIRY; anything else is a greeting. */
  function ClassifyIntent(reply: string): (intent: string)
    ensures intent in Labels
    ensures intent == Lead <==> Contains(Normalize(reply), Lead)
    ensures intent == Inquiry <==>
              !Contains(Normalize(reply), Lead) && Contains(Normalize(reply), Inquiry)
    ensures intent == Greeting <==>
              !Contains(Normalize(reply), Lead) && !Contains(Normalize(reply), Inquiry)
  {
    var text := Normalize(reply);
    if Contains(text, Lead) then Lead
    else if Contains(text, Inquiry) then Inquiry
    else Greeting
  }

  /** The labels are written in capitals already, so upper-casing a stored
      label gives it back. */
  lemma UpperKeepsLabel(l: string)
    requires l in Labels
    ensures Upper(l) == l
  {
    forall i | 0 <= i < |l| ensures Upper(l)[i] == l[i] {
      assert 'A' <= l[i] <= 'Z';
    }
  }

  /** A reply that mentions both labels is a lead. */
  lemma LeadWinsOverInquiry(reply: string)
    requires Contains(Normalize(reply), Lead) && Contains(Normalize(reply), Inquiry)
    ensures ClassifyIntent(reply) == Lead
  {
  }

  /** Upper-casing commutes with taking a slice. */
  lemma UpperSlice(s: string, i: nat, j: nat)
    requires i <= j <= |s|
    ensures Upper(s[i..j]) == Upper(s)[i..j]
  {
  }

  /** A word that starts or ends on a space of `s` cannot occur there once
      `s` is upper-cased, if the word itself holds no space. */
  lemma NoWordOnSpace(s: string, word: string, k: nat, i: nat)
    requires forall m :: 0 <= m < |word| ==> !IsSpace(word[m])
    requires OccursAt(Upper(s), word, k)
    requires k <= i < k + |word|
    ensures !IsSpace(s[i])
  {
    var u := Upper(s);
    assert u[k..k + |word|][i - k] == u[i];
  }

  /** A word found in the trimmed text is found in the whole text. */
  lemma {:induction false} TrimmedWordInWhole(s: string, word: string, k: nat)
    requires OccursAt(Upper(Strip(s)), word, k)
    ensures OccursAt(Upper(s), word, SkipSpace(s, 0) + k)
  {
    StripIsSlice(s);
    OccursInSlice(Upper(s), Upper(Strip(s)), SkipSpace(s, 0), word, k);
  }

  /** The upper-cased trimmed text is the matching slice of the upper-cased
      whole text. */
  lemma StripIsSlice(s: string)
    ensures var a := SkipSpace(s, 0);
            a + |Strip(s)| <= |s| && Upper(Strip(s)) == Upper(s)[a..a + |Strip(s)|]
  {
    var a := SkipSpace(s, 0);
    var n := |Strip(s)|;
    assert Strip(s) == s[a..a + n];
    UpperSlice(s, a, a + n);
  }

  /** A space-free word found in the whole text lies inside the trimmed text. */
  lemma {:induction false} WholeWordInTrimmed(s: string, word: string, k: nat)
    requires |word| > 0
    requires forall m :: 0 <= m < |word| ==> !IsSpace(word[m])
    requires OccursAt(Upper(s), word, k)
    ensures SkipSpace(s, 0) <= k
    ensures OccursAt(Upper(Strip(s)), word, k - SkipSpace(s, 0))
  {
    var a := SkipSpace(s, 0);
    var n := |Strip(s)|;
    var last := k + |word| - 1;
    NoWordOnSpace(s, word, k, k);
    SpaceAroundStrip(s, k);
    NoWordOnSpace(s, word, k, last);
    SpaceAroundStrip(s, last);
    StripIsSlice(s);
    OccursInSlice(Upper(s), Upper(Strip(s)), a, word, k - a);
  }

  /** Every character before or after the stripped text is a space. */
  lemma SpaceAroundStrip(s: string, i: nat)
    requires i < |s|
    ensures i < SkipSpace(s, 0) ==> IsSpace(s[i])
    ensures SkipSpace(s, 0) + |Strip(s)| <= i ==> IsSpace(s[i])
  {
    var a := SkipSpace(s, 0);
    var n := |Strip(s)|;
    if i < a {
      assert s[..a][i] == s[i];
    }
    if a + n <= i {
      assert s[a + n..][i - a - n] == s[i];
    }
  }

  /** Trimming never hides a word that has no space in it: such a word occurs
      in the trimmed, upper-cased reply iff it occurs in the upper-cased reply. */
  lemma {:induction false} TrimKeepsWords(s: string, word: string)
    requires |word| > 0
    requires forall k :: 0 <= k < |word| ==> !IsSpace(word[k])
    ensures Contains(Upper(Strip(s)), word) <==> Contains(Upper(s), word)
  {
    ContainsIff(Upper(Strip(s)), word);
    ContainsIff(Upper(s), word);
    if Contains(Upper(Strip(s)), word) {
      var k: nat :| OccursAt(Upper(Strip(s)), word, k);
      TrimmedWordInWhole(s, word, k);
    }
    if Contains(Upper(s), word) {
      var k: nat :| OccursAt(Upper(s), word, k);
      WholeWordInTrimmed(s, word, k);
    }
  }

  /** Leading and trailing whitespace around the classifier's answer never
      change the label. */
  lemma ClassifyIgnoresPadding(reply: string)
    ensures ClassifyIntent(reply) == Lead <==> Contains(Upper(reply), Lead)
    ensures ClassifyIntent(reply) == Inquiry <==>
              !Contains(Upper(reply), Lead) && Contains(Upper(reply), Inquiry)
  {
    TrimKeepsWords(reply, Lead);
    TrimKeepsWords(reply, Inquiry);
  }
}

=== FILE: json.dfy ===
/** The values `json.loads` produces, with the two Python behaviours the core
    depends on: truthiness (`if v`) and `str()` when a value is put into a
    reply with an f-string. Objects keep their key order as a sequence of
    pairs, because Python dictionaries do and `str()` shows it. */
module JsonValue {
  import opened Common

  datatype Json =
    | JNull
    | JBool(b: bool)
    | JNum(n: int)
    | JStr(s: string)
    | JArr(items: seq<Json>)
    | JObj(fields: seq<(string, Json)>)

  /** Python truthiness of a decoded value: None, False, 0 and empty
      strings, lists and dictionaries are falsy. */
  predicate Truthy(v: Json) {
    match v
    case JNull => false
    case JBool(b) => b
    case JNum(n) => n != 0
    case JStr(s) => |s| > 0
    case JArr(items) => |items| > 0
    case JObj(fields) => |fields| > 0
  }

  /** `d.get(key)` on the dictionary built from `fields` in order: a later
      pair for the same key overrides an earlier one. */
  function Lookup(fields: seq<(string, Json)>, key: string): (r: Option<Json>)
    ensures r.None? <==> forall i :: 0 <= i < |fields| ==> fields[i].0 != key
    ensures r.Some? ==>
              exists i :: && 0 <= i < |fields|
                          && fields[i] == (key, r.value)
                          && forall j :: i < j < |fields| ==> fields[j].0 != key
  {
    if |fields| == 0 then None
    else
      var last := fields[|fields| - 1];
      if last.0 == key then Some(last.1)
      else Lookup(fields[..|fields| - 1], key)
  }

  /** `dict(fields)`: the mapping a Python dictionary with these pairs denotes. */
  function ToMap(fields: seq<(string, Json)>): (m: map<string, Json>)
    ensures forall k :: k in m <==> Lookup(fields, k).Some?
    ensures forall k :: k in m ==> Some(m[k]) == Lookup(fields, k)
  {
    if |fields| == 0 then map[]
    else
      var last := fields[|fields| - 1];
      ToMap(fields[..|fields| - 1])[last.0 := last.1]
  }

  /** Decimal digits of a natural number, as `str(n)` writes them. */
  function NatText(n: nat): (r: string)
    ensures |r| > 0
    ensures forall i :: 0 <= i < |r| ==> '0' <= r[i] <= '9'
  {
    var d := [(n % 10 + '0' as int) as char];
    if n < 10 then d else NatText(n / 10) + d
  }

  /** `str(n)` for an integer. */
  function IntText(n: int): string {
    if n < 0 then "-" + NatText(-n) else NatText(n)
  }

  /** Items joined with ", ", as list and dict displays separate them. */
  function CommaJoin(parts: seq<string>): string {
    if |parts| == 0 then ""
    else if |parts| == 1 then parts[0]
    else parts[0] + ", " + CommaJoin(parts[1..])
  }

  /** The keys of the dictionary built from `fields`, each once, in the
      order of their first occurrence (the order a Python dict keeps). */
  function Keys(fields: seq<(string, Json)>): (ks: seq<string>)
    ensures forall k :: k in ks <==> Lookup(fields, k).Some?
    ensures forall i, j :: 0 <= i < j < |ks| ==> ks[i] != ks[j]
    ensures forall i, j :: 0 <= i < j < |ks| ==> FirstAt(fields, ks[i]) < FirstAt(fields, ks[j])
  {
    if |fields| == 0 then []
    else
      var rest := Keys(fields[..|fields| - 1]);
      var key := fields[|fields| - 1].0;
      if key in rest then rest else rest + [key]
  }

  /** The index of the first pair for `key`: where a dict places the key. */
  function FirstAt(fields: seq<(string, Json)>, key: string): (i: nat)
    requires Lookup(fields, key).Some?
    ensures i < |fields| && fields[i].0 == key
    ensures forall j :: 0 <= j < i ==> fields[j].0 != key
  {
    var init := fields[..|fields| - 1];
    if Lookup(init, key).Some? then FirstAt(init, key) else |fields| - 1
  }

  /** The index of the pair that decides `key`: its last occurrence. */
  function LastAt(fields: seq<(string, Json)>, key: string): (i: nat)
    requires Lookup(fields, key).Some?
    ensures i < |fields| && fields[i].0 == key
    ensures Lookup(fields, key) == Some(fields[i].1)
  {
    if fields[|fields| - 1].0 == key then |fields| - 1 else LastAt(fields[..|fields| - 1], key)
  }

  /** `repr(v)`: strings in single quotes, `None`/`True`/`False`, list and
      dict displays. An object is shown as the dictionary its pairs build:
      every key once, where it first appeared, with its last value. */
  function Repr(v: Json): string
    decreases v, 1
  {
    match v
    case JNull => "None"
    case JBool(b) => if b then "True" else "False"
    case JNum(n) => IntText(n)
    case JStr(s) => "'" + s + "'"
    case JArr(items) =>
      "[" + CommaJoin(seq(|items|, i requires 0 <= i < |items| => Repr(items[i]))) + "]"
    case JObj(fields) =>
      var ks := Keys(fields);
      "{" + CommaJoin(seq(|ks|, j requires 0 <= j < |ks| => Entry(v, ks[j]))) + "}"
  }

  /** One `'key': value` item of a dict display. */
  function Entry(v: Json, key: string): string
    requires v.JObj? && Lookup(v.fields, key).Some?
    decreases v, 0
  {
    "'" + key + "': " + Repr(v.fields[LastAt(v.fields, key)].1)
  }

  /** Two objects that build the same dictionary, with the keys in the same
      order, are shown alike, however many pairs each repeats. */
  lemma {:induction false} ReprOfDict(f: seq<(string, Json)>, g: seq<(string, Json)>)
    requires Keys(f) == Keys(g)
    requires forall k :: Lookup(f, k) == Lookup(g, k)
    ensures Repr(JObj(f)) == Repr(JObj(g))
  {
    var ks := Keys(f);
    var sf := seq(|ks|, j requires 0 <= j < |ks| => Entry(JObj(f), ks[j]));
    var sg := seq(|ks|, j requires 0 <= j < |ks| => Entry(JObj(g), ks[j]));
    forall j | 0 <= j < |ks| ensures sf[j] == sg[j] {
      assert Lookup(f, ks[j]) == Lookup(g, ks[j]);
    }
    assert sf == sg;
  }

  /** A repeated key is shown once, with the value of its last pair. */
  lemma ReprRepeatedKey(k: string, a: Json, b: Json)
    ensures Repr(JObj([(k, a), (k, b)])) == Repr(JObj([(k, b)]))
  {
    var f := [(k, a), (k, b)];
    var g := [(k, b)];
    assert f[..1] == [(k, a)] && f[..1][..0] == [] && g[..0] == [];
    assert Keys(f[..1]) == [k];
    assert Keys(f) == [k] == Keys(g);
    forall key ensures Lookup(f, key) == Lookup(g, key) {
      assert g[..0] == f[..1][..0];
    }
    ReprOfDict(f, g);
  }

  /** `str({"x": 2, "x": 3})` is `{'x': 3}`. */
  lemma ReprRepeatedKeyExample()
    ensures Repr(JObj([("x", JNum(2)), ("x", JNum(3))])) == "{'x': 3}"
  {
    ReprRepeatedKey("x", JNum(2), JNum(3));
    var g := [("x", JNum(3))];
    assert g[..0] == [];
    assert Keys(g) == ["x"];
    assert LastAt(g, "x") == 0;
    assert Entry(JObj(g), "x") == "'x': 3";
  }

  /** `str(v)`, which is what an f-string inserts: a string as itself, any
      other value as its `repr`. */
  function Show(v: Json): (r: string)
    ensures v.JStr? ==> r == v.s
  {
    if v.JStr? then v.s else Repr(v)
  }
}

=== FILE: lead.dfy ===
/** The lead slot-filling node (`lead_capture_agent`) and the mock capture
    tool it calls. The node's model call is an input: `reply` is what the
    model answered, or `Raised` when the call failed. `json.loads` is the
    parameter `loads`, which yields `None` where the parser would raise. */
module LeadAgent {
  import opened Common
  import opened Text
  import opened JsonValue
  import opened Email
  import opened Extraction
  import opened Agents

  const NameField := "name"
  const EmailField := "email"
  const PlatformField := "platform"

  /** The fields a lead needs, in the order the node checks them. */
  const Required: seq<string> := [NameField, EmailField, PlatformField]

  /** The reply sent whenever the model's answer cannot be used. */
  const FallbackText := "I'd love to help you get started! Could you please tell me your name?"

  /** Position of a required field in `Required`. */
  function Rank(f: string): nat {
    if f == NameField then 0 else if f == EmailField then 1 else 2
  }

  /** The field is still to be collected: absent, or present but falsy. */
  predicate Lacks(info: UserInfo, f: string) {
    f !in info || !Truthy(info[f])
  }

  /** The required fields still missing, in the order of `Required`. */
  function MissingFields(info: UserInfo): (missing: seq<string>)
    ensures forall f :: f in missing <==> f in Required && Lacks(info, f)
    ensures forall i, j :: 0 <= i < j < |missing| ==> Rank(missing[i]) < Rank(missing[j])
  {
    (if Lacks(info, NameField) then [NameField] else [])
    + (if Lacks(info, EmailField) then [EmailField] else [])
    + (if Lacks(info, PlatformField) then [PlatformField] else [])
  }

  /** What `mock_lead_capture` returns for the three details. */
  function CaptureResult(name: string, email: string, platform: string): (r: string)
    ensures |r| == 19 + |name| + |email| + |platform|
    ensures OccursAt(r, name, 15)
    ensures OccursAt(r, email, 17 + |name|)
    ensures OccursAt(r, platform, 19 + |name| + |email|)
  {
    var r := "Lead captured: " + name + ", " + email + ", " + platform;
    assert r[15..15 + |name|] == name;
    assert r[17 + |name|..17 + |name| + |email|] == email;
    assert r[19 + |name| + |email|..] == platform;
    r
  }

  /** The closing message once every detail is known: it greets the lead by
      name and then quotes the capture tool's result. */
  function FinalText(name: string, email: string, platform: string): (r: string)
    ensures OccursAt(r, name, 7)
    ensures var tail := CaptureResult(name, email, platform);
            |tail| <= |r| && r[|r| - |tail|..] == tail
  {
    var r := "Thanks " + name + " for your interest!\n" + CaptureResult(name, email, platform);
    assert r[7..7 + |name|] == name;
    r
  }

  /** The words around a rejected e-mail in the reply that quotes it. */
  const InvalidOpening := "Hmm, '"
  const InvalidClosing := "' doesn't look like a valid email. "
                          + "Could you please provide a valid email address (e.g., name@example.com)?"

  /** The reply quoting a collected e-mail that fails the format check: the
      value appears in single quotes right after the opening words. */
  function InvalidEmailText(shown: string): (r: string)
    ensures OccursAt(r, shown, 6) && 6 + |shown| < |r|
    ensures r[..6] == "Hmm, '"
    ensures r[5] == '\'' && r[6 + |shown|] == '\''
  {
    Framed(InvalidOpening, shown, InvalidClosing);
    InvalidOpening + shown + InvalidClosing
  }

  /** `is_valid_email` applied to whatever value the model put under
      `email`. A string is checked; numbers and booleans make the `in` test
      raise; a list or dictionary is "not containing @" (element or key)
      and so invalid, unless it does contain "@", in which case the
      following `split` raises. */
  function EmailVerdict(v: Json): (r: Try<bool>)
    ensures v.JStr? ==> r == Returned(IsValidEmail(v.s))
    ensures (v.JNull? || v.JBool? || v.JNum?) ==> r.Raised?
    ensures r == Returned(true) ==> v.JStr?
    ensures v.JArr? ==> (r.Raised? <==> JStr("@") in v.items) && (r.Returned? ==> !r.value)
    ensures v.JObj? ==> (r.Raised? <==> Lookup(v.fields, "@").Some?) && (r.Returned? ==> !r.value)
  {
    match v
    case JStr(s) => Returned(IsValidEmail(s))
    case JArr(items) => if JStr("@") in items then Raised else Returned(false)
    case JObj(fields) => if Lookup(fields, "@").Some? then Raised else Returned(false)
    case _ => Raised
  }

  /** The two values the node reads from the parsed reply. */
  datatype Extracted = Extracted(collected: UserInfo, responseText: Json)

  /** The truthy entries of a mapping, as the dictionary comprehension
      that drops empty values keeps them. */
  function KeepTruthy(m: UserInfo): (r: UserInfo)
    ensures forall k :: k in r <==> k in m && Truthy(m[k])
    ensures forall k :: k in r ==> r[k] == m[k]
  {
    map k | k in m && Truthy(m[k]) :: m[k]
  }

  /** Parsing the model's answer: the candidate must load to an object, its
      `collected` entry (default `{}`) must be an object too, and
      `response_text` defaults to the empty string. `None` is every way
      this raises. */
  function ParseReply(reply: string, loads: string -> Option<Json>): (r: Option<Extracted>)
    ensures r.Some? ==> forall k :: k in r.value.collected ==> Truthy(r.value.collected[k])
    ensures r.Some? <==>
              && loads(Candidate(reply)).Some?
              && loads(Candidate(reply)).value.JObj?
              && Or(Lookup(loads(Candidate(reply)).value.fields, "collected"), JObj([])).JObj?
    ensures r.Some? ==>
              var d := loads(Candidate(reply)).value.fields;
              var c := Or(Lookup(d, "collected"), JObj([])).fields;
              && (forall k :: k in r.value.collected <==> Lookup(c, k).Some? && Truthy(Lookup(c, k).value))
              && (forall k :: k in r.value.collected ==> Some(r.value.collected[k]) == Lookup(c, k))
              && r.value.responseText == Or(Lookup(d, "response_text"), JStr(""))
  {
    match loads(Candidate(reply))
    case Some(JObj(fields)) =>
      var collected := Or(Lookup(fields, "collected"), JObj([]));
      var text := Or(Lookup(fields, "response_text"), JStr(""));
      if collected.JObj? then Some(Extracted(KeepTruthy(ToMap(collected.fields)), text))
      else None
    case _ => None
  }

  /** The fallback update: only the fixed reply, no other key. */
  function Fallback(): (u: Update)
    ensures u.messages == [Ai(FallbackText)]
    ensures u.intents.None? && u.userInfo.None? && u.leadCaptured.None?
  {
    Say([Ai(FallbackText)])
  }

  /** The node's answer once the reply has been parsed (`None` when parsing
      failed): the e-mail check, the merge, or the fallback. */
  function Respond(info: UserInfo, parsed: Option<Extracted>): (u: Update)
    requires parsed.Some? ==> forall k :: k in parsed.value.collected ==> Truthy(parsed.value.collected[k])
    ensures |u.messages| == 1 && u.messages[0].Ai?
    ensures u.intents.None? && u.leadCaptured.None?
    ensures u.userInfo.Some? ==>
              forall k :: k in info ==> k in u.userInfo.value
    ensures u.userInfo.Some? ==>
              forall k :: k in u.userInfo.value ==>
                (k in info && u.userInfo.value[k] == info[k]) || Truthy(u.userInfo.value[k])
  {
    match parsed
    case None => Fallback()
    case Some(ex) =>
      var found := ex.collected;
      var verdict := if EmailField in found then EmailVerdict(found[EmailField]) else Returned(true);
      match verdict
      case Raised => Fallback()
      case Returned(ok) =>
        if !ok then
          Update([Ai(InvalidEmailText(Show(found[EmailField])))], None, Some(info), None)
        else if ex.responseText.JStr? then
          Update([Ai(ex.responseText.s)], None, Some(info + found), None)
        else
          Fallback()
  }

  /** Everything after the model call on the collection path, all inside
      the node's `try`: any failure there becomes the fallback. */
  function Collect(info: UserInfo, reply: string, loads: string -> Option<Json>): (u: Update)
    ensures |u.messages| == 1 && u.messages[0].Ai?
    ensures u.intents.None? && u.leadCaptured.None?
    ensures u.userInfo.Some? ==>
              forall k :: k in info ==> k in u.userInfo.value
    ensures u.userInfo.Some? ==>
              forall k :: k in u.userInfo.value ==>
                (k in info && u.userInfo.value[k] == info[k]) || Truthy(u.userInfo.value[k])
  {
    Respond(info, ParseReply(reply, loads))
  }

  /** `lead_capture_agent`. With every detail present it finalises through
      the capture tool (whose parameters are strings, so a non-string detail
      makes the call raise) and never consults the model; otherwise the
      model is asked, and a failed call propagates. */
  function LeadCapture(info: UserInfo, reply: Try<string>, loads: string -> Option<Json>): (r: Try<Update>)
    ensures |MissingFields(info)| > 0 ==> (r.Raised? <==> reply.Raised?)
    ensures r.Returned? ==> |r.value.messages| == 1 && r.value.messages[0].Ai? && r.value.intents.None?
    ensures r.Returned? && r.value.leadCaptured.Some? ==> |MissingFields(info)| == 0
    ensures |MissingFields(info)| > 0 && reply.Returned? ==> r == Returned(Collect(info, reply.value, loads))
  {
    if |MissingFields(info)| == 0 then
      var n, e, p := info[NameField], info[EmailField], info[PlatformField];
      if n.JStr? && e.JStr? && p.JStr? then
        Returned(Update([Ai(FinalText(n.s, e.s, p.s))], None, None, Some(true)))
      else
        Raised
    else
      match reply
      case Raised => Raised
      case Returned(text) => Returned(Collect(info, text, loads))
  }

  /** With all three details present as strings the lead is captured: the
      flag is set, the reply is the fixed closing message, and the model's
      answer is never looked at. */
  lemma CompleteInfoCaptures(info: UserInfo, reply: Try<string>, loads: string -> Option<Json>,
                             name: string, email: string, platform: string)
    requires |name| > 0 && |email| > 0 && |platform| > 0
    requires NameField in info && info[NameField] == JStr(name)
    requires EmailField in info && info[EmailField] == JStr(email)
    requires PlatformField in info && info[PlatformField] == JStr(platform)
    ensures MissingFields(info) == []
    ensures LeadCapture(info, reply, loads) ==
            Returned(Update([Ai("Thanks " + name + " for your interest!\nLead captured: "
                                + name + ", " + email + ", " + platform)],
                            None, None, Some(true)))
  {
    assert !Lacks(info, NameField) && !Lacks(info, EmailField) && !Lacks(info, PlatformField);
    FinalTextSpelled(name, email, platform);
  }

  /** The closing message written out in full. */
  lemma FinalTextSpelled(name: string, email: string, platform: string)
    ensures FinalText(name, email, platform) ==
            "Thanks " + name + " for your interest!\nLead captured: " + name + ", " + email + ", " + platform
  {
  }

  /** A complete record with a detail that is not a string cannot be handed
      to the capture tool: the node raises. */
  lemma NonStringDetailRaises(info: UserInfo, reply: Try<string>, loads: string -> Option<Json>)
    requires MissingFields(info) == []
    requires !info[NameField].JStr? || !info[EmailField].JStr? || !info[PlatformField].JStr?
    ensures LeadCapture(info, reply, loads).Raised?
  {
    assert NameField in Required && EmailField in Required && PlatformField in Required;
  }

  /** When the answer parses and its e-mail (if any) passes, the merge is
      last-write-wins per key: new values replace old ones, and keys the
      answer does not mention keep their values. */
  lemma MergeLastWriteWins(info: UserInfo, ex: Extracted)
    requires forall k :: k in ex.collected ==> Truthy(ex.collected[k])
    requires EmailField in ex.collected ==> EmailVerdict(ex.collected[EmailField]) == Returned(true)
    requires ex.responseText.JStr?
    ensures Respond(info, Some(ex)).userInfo.Some?
    ensures var merged := Respond(info, Some(ex)).userInfo.value;
            && (forall k :: k in merged <==> k in info || k in ex.collected)
            && (forall k :: k in ex.collected ==> merged[k] == ex.collected[k])
            && (forall k :: k in info && k !in ex.collected ==> merged[k] == info[k])
    ensures Respond(info, Some(ex)).messages == [Ai(ex.responseText.s)]
  {
  }

  /** While a detail is missing, an answer that parses with an acceptable
      e-mail (or none) and a string `response_text` is merged into the
      details, and that text is the reply. */
  lemma CollectingMerges(info: UserInfo, text: string, loads: string -> Option<Json>, ex: Extracted)
    requires |MissingFields(info)| > 0
    requires ParseReply(text, loads) == Some(ex)
    requires EmailField in ex.collected ==> EmailVerdict(ex.collected[EmailField]) == Returned(true)
    requires ex.responseText.JStr?
    ensures LeadCapture(info, Returned(text), loads) ==
            Returned(Update([Ai(ex.responseText.s)], None, Some(info + ex.collected), None))
  {
    assert Collect(info, text, loads) == Respond(info, Some(ex));
  }

  /** A collected e-mail that fails the check throws away everything the
      answer collected: the details stay as they were and the reply quotes
      the rejected value. */
  lemma InvalidEmailKeepsInfo(info: UserInfo, ex: Extracted)
    requires forall k :: k in ex.collected ==> Truthy(ex.collected[k])
    requires EmailField in ex.collected
    requires EmailVerdict(ex.collected[EmailField]) == Returned(false)
    ensures Respond(info, Some(ex)) ==
            Update([Ai(InvalidEmailText(Show(ex.collected[EmailField])))], None, Some(info), None)
  {
  }

  /** A string e-mail without `@` is rejected and quoted as typed. */
  lemma InvalidStringEmail(info: UserInfo, ex: Extracted, bad: string)
    requires forall k :: k in ex.collected ==> Truthy(ex.collected[k])
    requires EmailField in ex.collected && ex.collected[EmailField] == JStr(bad)
    requires '@' !in bad
    ensures Respond(info, Some(ex)).userInfo == Some(info)
    ensures Respond(info, Some(ex)).messages == [Ai(InvalidEmailText(bad))]
  {
    RejectsWithoutAt(bad);
  }

  /** An e-mail value on which the check itself raises (a number, a boolean,
      null, or a list or dictionary holding "@") sends the node to its
      `except` branch: the fixed fallback, and no details. */
  lemma EmailCheckRaisesFallsBack(info: UserInfo, ex: Extracted)
    requires forall k :: k in ex.collected ==> Truthy(ex.collected[k])
    requires EmailField in ex.collected && EmailVerdict(ex.collected[EmailField]).Raised?
    ensures Respond(info, Some(ex)) == Fallback()
  {
  }

  /** A `response_text` that is not a string cannot be the content of the
      AI message, so an otherwise acceptable answer also falls back. */
  lemma NonStringReplyFallsBack(info: UserInfo, ex: Extracted)
    requires forall k :: k in ex.collected ==> Truthy(ex.collected[k])
    requires EmailField in ex.collected ==> EmailVerdict(ex.collected[EmailField]) == Returned(true)
    requires !ex.responseText.JStr?
    ensures Respond(info, Some(ex)) == Fallback()
  {
  }

  /** An answer that does not parse, is not an object, or whose `collected`
      is not an object yields the fixed fallback and no details. */
  lemma ParseFailureFallsBack(info: UserInfo, reply: string, loads: string -> Option<Json>)
    requires ParseReply(reply, loads).None?
    ensures Collect(info, reply, loads) == Say([Ai(FallbackText)])
  {
  }

  /** `{}` as the answer is no failure: both keys take their defaults, so
      the reply is empty and the details are rewritten unchanged. */
  lemma EmptyObjectUsesDefaults(info: UserInfo, reply: string, loads: string -> Option<Json>)
    requires loads(Candidate(reply)) == Some(JObj([]))
    ensures Collect(info, reply, loads) == Update([Ai("")], None, Some(info), None)
  {
    var none: UserInfo := map[];
    EmptyObjectParses(reply, loads);
    assert info + none == info;
    assert Respond(info, Some(Extracted(none, JStr("")))) == Update([Ai("")], None, Some(info), None);
  }

  /** `{}` parses to nothing collected and an empty reply. */
  lemma EmptyObjectParses(reply: string, loads: string -> Option<Json>)
    requires loads(Candidate(reply)) == Some(JObj([]))
    ensures ParseReply(reply, loads) == Some(Extracted(map[], JStr("")))
  {
    var none: UserInfo := map[];
    assert ToMap([]) == none;
    assert KeepTruthy(none) == none;
  }

  /** Values the answer leaves empty are not merged: a falsy `collected`
      entry does not overwrite or add a key. */
  lemma FalsyValuesDropped(reply: string, loads: string -> Option<Json>, k: string)
    requires ParseReply(reply, loads).Some?
    requires var data := loads(Candidate(reply)).value;
             var c := Or(Lookup(data.fields, "collected"), JObj([]));
             Lookup(c.fields, k).Some? && !Truthy(Lookup(c.fields, k).value)
    ensures k !in ParseReply(reply, loads).value.collected
  {
  }

  /** Merging never makes the set of missing fields larger. */
  lemma CollectNeverLosesFields(info: UserInfo, parsed: Option<Extracted>)
    requires parsed.Some? ==> forall k :: k in parsed.value.collected ==> Truthy(parsed.value.collected[k])
    requires Respond(info, parsed).userInfo.Some?
    ensures forall f :: f in MissingFields(Respond(info, parsed).userInfo.value) ==>
                          f in MissingFields(info)
  {
  }

  /** The collection path never sets the capture flag, even when the merge
      completes the three fields. */
  lemma CollectNeverCaptures(info: UserInfo, reply: string, loads: string -> Option<Json>)
    ensures Collect(info, reply, loads).leadCaptured.None?
  {
  }

  /** A first answer that collects a name and a valid e-mail stores both
      and passes the model's question on. */
  lemma NameAndEmailCollected(name: string, email: string, question: string)
    requires |name| > 0 && IsValidEmail(email)
    ensures var found := map[NameField := JStr(name), EmailField := JStr(email)];
            Respond(map[], Some(Extracted(found, JStr(question)))) ==
            Update([Ai(question)], None, Some(found), None)
  {
    var found := map[NameField := JStr(name), EmailField := JStr(email)];
    assert found[EmailField] == JStr(email);
    assert EmailVerdict(found[EmailField]) == Returned(true);
    var none: UserInfo := map[];
    assert none + found == found;
  }

  /** With a name and an e-mail known, only the platform is missing. */
  lemma OnlyPlatformMissing(name: string, email: string)
    requires |name| > 0 && |email| > 0
    ensures MissingFields(map[NameField := JStr(name), EmailField := JStr(email)]) == [PlatformField]
  {
    var found := map[NameField := JStr(name), EmailField := JStr(email)];
    assert !Lacks(found, NameField) && !Lacks(found, EmailField) && Lacks(found, PlatformField);
  }
}

=== FILE: text.dfy ===
/** The handful of Python string operations the core relies on, written out
    by hand: whitespace (str.isspace, which is also what the regex class `\s`
    matches in a str pattern), strip, substring search, ASCII case mapping,
    str.replace with an empty replacement, and str.split on one character. */
module Text {
  import opened Common

  /** Python's str.isspace() for one code point: the ASCII controls TAB..CR,
      the four information separators, SPACE, NEL, NBSP and the Unicode space
      separators and line/paragraph separators. */
  predicate IsSpace(c: char) {
    || ('\t' <= c <= '\r')
    || ('\U{1C}' <= c <= '\U{1F}')
    || c == ' '
    || c == '\U{85}'
    || c == '\U{A0}'
    || c == '\U{1680}'
    || ('\U{2000}' <= c <= '\U{200A}')
    || c == '\U{2028}'
    || c == '\U{2029}'
    || c == '\U{202F}'
    || c == '\U{205F}'
    || c == '\U{3000}'
  }

  predicate AllSpace(s: string) {
    forall k :: 0 <= k < |s| ==> IsSpace(s[k])
  }

  /** The first index at or after `i` that does not hold a space. */
  function SkipSpace(s: string, i: nat): (j: nat)
    requires i <= |s|
    ensures i <= j <= |s|
    ensures AllSpace(s[i..j])
    ensures j == |s| || !IsSpace(s[j])
    decreases |s| - i
  {
    if i < |s| && IsSpace(s[i]) then SkipSpace(s, i + 1) else i
  }

  /** The index just past the last non-space strictly before `j`. */
  function BackSpace(s: string, j: nat): (i: nat)
    requires j <= |s|
    ensures i <= j
    ensures AllSpace(s[i..j])
    ensures i == 0 || !IsSpace(s[i - 1])
  {
    if j > 0 && IsSpace(s[j - 1]) then
      var i := BackSpace(s, j - 1);
      AllSpaceExtend(s, i, j);
      i
    else j
  }

  /** A run of spaces followed by one more space is a longer run. */
  lemma AllSpaceExtend(s: string, i: nat, j: nat)
    requires i < j <= |s|
    requires AllSpace(s[i..j - 1]) && IsSpace(s[j - 1])
    ensures AllSpace(s[i..j])
  {
    forall k | 0 <= k < j - i ensures IsSpace(s[i..j][k]) {
      if k < j - 1 - i {
        assert s[i..j][k] == s[i..j - 1][k];
      }
    }
  }

  /** str.rstrip() with no argument. */
  function RStrip(s: string): (r: string)
    ensures |r| <= |s| && r == s[..|r|]
    ensures AllSpace(s[|r|..])
    ensures |r| == 0 || !IsSpace(r[|r| - 1])
  {
    s[..BackSpace(s, |s|)]
  }

  /** str.strip() with no argument: the text between the leading and the
      trailing run of spaces. */
  function Strip(s: string): (r: string)
    ensures |r| == 0 || (!IsSpace(r[0]) && !IsSpace(r[|r| - 1]))
    ensures var a := SkipSpace(s, 0);
            && a + |r| <= |s|
            && r == s[a..a + |r|]
            && AllSpace(s[..a])
            && AllSpace(s[a + |r|..])
  {
    RStrip(s[SkipSpace(s, 0)..])
  }

  /** A text that neither starts nor ends with a space is its own strip. */
  lemma StripUnpadded(s: string)
    requires |s| == 0 || (!IsSpace(s[0]) && !IsSpace(s[|s| - 1]))
    ensures Strip(s) == s
  {
    assert SkipSpace(s, 0) == 0;
    assert s[0..] == s;
    assert BackSpace(s, |s|) == |s|;
  }

  /** `pat` occurs in `s` starting at index `i`. */
  predicate OccursAt(s: string, pat: string, i: nat) {
    i + |pat| <= |s| && s[i..i + |pat|] == pat
  }

  /** str.find(pat, from) as an Option: the leftmost occurrence at or after `from`. */
  function Find(s: string, pat: string, from: nat): (r: Option<nat>)
    ensures r.Some? ==>
              && from <= r.value
              && OccursAt(s, pat, r.value)
              && forall k :: from <= k < r.value ==> !OccursAt(s, pat, k)
    ensures r.None? ==> forall k :: from <= k ==> !OccursAt(s, pat, k)
    decreases |s| - from
  {
    if from + |pat| > |s| then None
    else if OccursAt(s, pat, from) then Some(from)
    else Find(s, pat, from + 1)
  }

  /** Python's `pat in s` for strings. */
  predicate Contains(s: string, pat: string) {
    Find(s, pat, 0).Some?
  }

  lemma ContainsIff(s: string, pat: string)
    ensures Contains(s, pat) <==> exists k: nat :: OccursAt(s, pat, k)
  {
    if !Contains(s, pat) {
      forall k: nat ensures !OccursAt(s, pat, k) {
      }
    }
  }

  /** An occurrence inside a slice is an occurrence in the whole text,
      shifted by the slice's start, and conversely. */
  lemma OccursShift(s: string, lo: nat, hi: nat, pat: string, k: nat)
    requires lo <= hi <= |s|
    requires lo + k + |pat| <= hi
    ensures OccursAt(s[lo..hi], pat, k) <==> OccursAt(s, pat, lo + k)
  {
    var inner := s[lo..hi];
    var x := inner[k..k + |pat|];
    var y := s[lo + k..lo + k + |pat|];
    forall m | 0 <= m < |x| ensures x[m] == y[m] {
      assert x[m] == inner[k + m] == s[lo + k + m];
    }
    assert x == y;
  }

  /** An occurrence in a slice `v` of `u` starting at `a` is one in `u`,
      and conversely. */
  lemma OccursInSlice(u: string, v: string, a: nat, word: string, k: nat)
    requires a + |v| <= |u| && v == u[a..a + |v|]
    requires k + |word| <= |v|
    ensures OccursAt(v, word, k) <==> OccursAt(u, word, a + k)
  {
    OccursShift(u, a, a + |v|, word, k);
  }

  /** `x` appears in `t` from index `lo` on, stated character by character. */
  predicate SitsAt(t: string, x: string, lo: nat) {
    lo + |x| <= |t| && forall k :: 0 <= k < |x| ==> t[lo + k] == x[k]
  }

  /** The two ways of saying that `x` occurs in `t` at `lo` agree. */
  lemma OccursSits(t: string, x: string, lo: nat)
    ensures OccursAt(t, x, lo) <==> SitsAt(t, x, lo)
  {
    if SitsAt(t, x, lo) {
      var u := t[lo..lo + |x|];
      forall m | 0 <= m < |x| ensures u[m] == x[m] {
        assert t[lo + m] == x[m];
      }
      assert u == x;
    }
    if OccursAt(t, x, lo) {
      forall m | 0 <= m < |x| ensures t[lo + m] == x[m] {
        assert t[lo..lo + |x|][m] == t[lo + m];
      }
    }
  }

  /** A slice of a text that sits inside `t` is the matching slice of `t`. */
  lemma SliceAt(t: string, x: string, lo: nat, a: nat, b: nat)
    requires SitsAt(t, x, lo) && a <= b <= |x|
    ensures t[lo + a..lo + b] == x[a..b]
  {
    var u, v := t[lo + a..lo + b], x[a..b];
    forall m | 0 <= m < |u| ensures u[m] == v[m] {
      assert t[lo + (a + m)] == x[a + m];
    }
  }

  /** A piece of a piece of `s` is a piece of `s`. */
  lemma OccursWithin(s: string, mid: string, pat: string, i: nat, j: nat)
    requires OccursAt(s, mid, i) && OccursAt(mid, pat, j)
    ensures OccursAt(s, pat, i + j)
  {
    OccursShift(s, i, i + |mid|, pat, j);
  }

  /** The position `Find` reports is the one every first occurrence has. */
  lemma FindIs(s: string, pat: string, from: nat, i: nat)
    requires from <= i && OccursAt(s, pat, i)
    requires forall k :: from <= k < i ==> !OccursAt(s, pat, k)
    ensures Find(s, pat, from) == Some(i)
  {
  }

  /** Index of the first `c` in `s` at or after `from`. */
  function FirstFrom(s: string, c: char, from: nat): (r: Option<nat>)
    requires from <= |s|
    ensures r.None? <==> forall k :: from <= k < |s| ==> s[k] != c
    ensures r.Some? ==> from <= r.value < |s| && s[r.value] == c
    ensures r.Some? ==> forall k :: from <= k < r.value ==> s[k] != c
    decreases |s| - from
  {
    if from == |s| then None
    else if s[from] == c then Some(from)
    else FirstFrom(s, c, from + 1)
  }

  /** Index of the first `c` in `s`. */
  function FirstOf(s: string, c: char): (r: Option<nat>)
    ensures r.None? <==> forall k :: 0 <= k < |s| ==> s[k] != c
    ensures r.Some? ==> r.value < |s| && s[r.value] == c
    ensures r.Some? ==> forall k :: 0 <= k < r.value ==> s[k] != c
  {
    FirstFrom(s, c, 0)
  }

  /** Index of the last `c` in `s` strictly before `upto`. */
  function LastBefore(s: string, c: char, upto: nat): (r: Option<nat>)
    requires upto <= |s|
    ensures r.None? <==> forall k :: 0 <= k < upto ==> s[k] != c
    ensures r.Some? ==> r.value < upto && s[r.value] == c
    ensures r.Some? ==> forall k :: r.value < k < upto ==> s[k] != c
  {
    if upto == 0 then None
    else if s[upto - 1] == c then Some(upto - 1)
    else LastBefore(s, c, upto - 1)
  }

  /** Index of the last `c` in `s`. */
  function LastOf(s: string, c: char): (r: Option<nat>)
    ensures r.None? <==> forall k :: 0 <= k < |s| ==> s[k] != c
    ensures r.Some? ==> r.value < |s| && s[r.value] == c
    ensures r.Some? ==> forall k :: r.value < k < |s| ==> s[k] != c
  {
    LastBefore(s, c, |s|)
  }

  /** ASCII upper-casing of one character. */
  function UpperChar(c: char): char {
    if 'a' <= c <= 'z' then (c as int - 32) as char else c
  }

  /** ASCII lower-casing of one character. */
  function LowerChar(c: char): char {
    if 'A' <= c <= 'Z' then (c as int + 32) as char else c
  }

  /** str.upper() restricted to ASCII letters. */
  function Upper(s: string): (r: string)
    ensures |r| == |s|
    ensures forall i :: 0 <= i < |s| ==> r[i] == UpperChar(s[i])
  {
    seq(|s|, i requires 0 <= i < |s| => UpperChar(s[i]))
  }

  /** str.lower() restricted to ASCII letters. */
  function Lower(s: string): (r: string)
    ensures |r| == |s|
    ensures forall i :: 0 <= i < |s| ==> r[i] == LowerChar(s[i])
  {
    seq(|s|, i requires 0 <= i < |s| => LowerChar(s[i]))
  }

  /** `s.replace(pat, "")`: one left-to-right pass deleting non-overlapping
      occurrences. Occurrences that the deletions themselves bring together
      are not deleted. */
  function RemoveAll(s: string, pat: string): (r: string)
    requires |pat| > 0
    ensures |r| <= |s|
    decreases |s|
  {
    if |s| < |pat| then s
    else if s[..|pat|] == pat then RemoveAll(s[|pat|..], pat)
    else [s[0]] + RemoveAll(s[1..], pat)
  }

  /** Without an occurrence there is nothing to delete. */
  lemma {:induction false} RemoveAllAbsent(s: string, pat: string)
    requires |pat| > 0
    requires !Contains(s, pat)
    ensures RemoveAll(s, pat) == s
    decreases |s|
  {
    ContainsIff(s, pat);
    if |s| >= |pat| {
      assert !OccursAt(s, pat, 0);
      assert s[..|pat|] != pat;
      forall k: nat ensures !OccursAt(s[1..], pat, k) {
        assert !OccursAt(s, pat, k + 1);
      }
      ContainsIff(s[1..], pat);
      RemoveAllAbsent(s[1..], pat);
      assert s == [s[0]] + s[1..];
    }
  }

  /** A leading occurrence is deleted and the rest is processed as usual. */
  lemma RemoveAllLeading(pat: string, rest: string)
    requires |pat| > 0
    ensures RemoveAll(pat + rest, pat) == RemoveAll(rest, pat)
  {
    var s := pat + rest;
    assert s[..|pat|] == pat;
    assert s[|pat|..] == rest;
  }

  /** The deletion works from the leftmost occurrence: everything before it
      is kept, it is dropped, and the pass resumes right after it. With
      `RemoveAllAbsent` this pins down the result for every text. */
  lemma RemoveAllFirst(s: string, pat: string, i: nat)
    requires |pat| > 0
    requires OccursAt(s, pat, i)
    requires forall k :: 0 <= k < i ==> !OccursAt(s, pat, k)
    ensures RemoveAll(s, pat) == s[..i] + RemoveAll(s[i + |pat|..], pat)
  {
    RemoveAllFrom(s, pat, 0, i);
    assert s[0..] == s;
  }

  /** `RemoveAllFirst` for the suffix from `j`, by induction on the
      distance from `j` to the occurrence. */
  lemma {:induction false} RemoveAllFrom(s: string, pat: string, j: nat, i: nat)
    requires |pat| > 0 && j <= i
    requires OccursAt(s, pat, i)
    requires forall k :: j <= k < i ==> !OccursAt(s, pat, k)
    ensures RemoveAll(s[j..], pat) == s[j..i] + RemoveAll(s[i + |pat|..], pat)
    decreases i - j
  {
    if j == i {
      DropAt(s, pat, i);
    } else {
      assert !OccursAt(s, pat, j);
      RemoveAllFrom(s, pat, j + 1, i);
      KeepAt(s, pat, j, i, RemoveAll(s[i + |pat|..], pat));
    }
  }

  /** An occurrence at `i` is dropped from the suffix that starts there. */
  lemma DropAt(s: string, pat: string, i: nat)
    requires |pat| > 0 && OccursAt(s, pat, i)
    ensures RemoveAll(s[i..], pat) == s[i..i] + RemoveAll(s[i + |pat|..], pat)
  {
    var t := s[i..];
    assert t[..|pat|] == pat;
    assert t[|pat|..] == s[i + |pat|..];
    assert s[i..i] + RemoveAll(s[i + |pat|..], pat) == RemoveAll(s[i + |pat|..], pat);
  }

  /** A character at `j` that starts no occurrence is kept in front of the
      rest of the pass. */
  lemma KeepAt(s: string, pat: string, j: nat, i: nat, rest: string)
    requires |pat| > 0 && j < i && i + |pat| <= |s|
    requires !OccursAt(s, pat, j)
    requires RemoveAll(s[j + 1..], pat) == s[j + 1..i] + rest
    ensures RemoveAll(s[j..], pat) == s[j..i] + rest
  {
    SuffixStep(s, j, i);
    KeepFirst(s[j..], pat);
    Regroup(s[j], s[j + 1..i], rest, s[j..i]);
  }

  /** The suffix from `j`, seen from its second character. */
  lemma SuffixStep(s: string, j: nat, i: nat)
    requires j < i <= |s|
    ensures s[j..][1..] == s[j + 1..]
    ensures s[j..][0] == s[j]
    ensures [s[j]] + s[j + 1..i] == s[j..i]
  {
  }

  /** A text that does not start with `pat` keeps its first character. */
  lemma KeepFirst(t: string, pat: string)
    requires 0 < |pat| < |t|
    requires !OccursAt(t, pat, 0)
    ensures RemoveAll(t, pat) == [t[0]] + RemoveAll(t[1..], pat)
  {
    assert t[..|pat|] != pat by {
      assert t[0..|pat|] == t[..|pat|];
    }
  }

  lemma Regroup(x: char, u: string, c: string, v: string)
    requires [x] + u == v
    ensures [x] + (u + c) == v + c
  {
  }

  /** One pass only: deleting an occurrence can bring two pieces together
      into a new one, and that one stays. */
  lemma RemoveAllJoins()
    ensures RemoveAll("whats" + "whatsapp:" + "app:", "whatsapp:") == "whats" + "app:"
    ensures "whats" + "app:" == "whatsapp:"
  {
    var pat := "whatsapp:";
    var s := "whats" + pat + "app:";
    forall k | 0 <= k < 5 ensures !OccursAt(s, pat, k) {
      OccursSits(s, pat, k);
      assert s[k + 8] != pat[8];
    }
    OccursSits(s, pat, 5);
    RemoveAllFirst(s, pat, 5);
    assert s[..5] == "whats";
    assert s[14..] == "app:";
    RemoveAllAbsent("app:", pat);
  }

  /** `x` between `a` and `b`: where each of the three pieces lies. */
  lemma Framed(a: string, x: string, b: string)
    ensures |a + x + b| == |a| + |x| + |b|
    ensures (a + x + b)[..|a|] == a
    ensures OccursAt(a + x + b, x, |a|)
    ensures (a + x + b)[|a| + |x|..] == b
  {
    assert (a + x + b)[|a|..|a| + |x|] == x;
  }

  /** Number of occurrences of `c` in `s`. */
  function Count(s: string, c: char): (n: nat)
    ensures n <= |s|
    ensures n == 0 <==> c !in s
  {
    if |s| == 0 then 0
    else (if s[0] == c then 1 else 0) + Count(s[1..], c)
  }

  /** str.split(sep) for a one-character separator: the maximal runs between
      separators, empty runs included. */
  function Split(s: string, sep: char): (parts: seq<string>)
    ensures |parts| == Count(s, sep) + 1
    ensures forall i :: 0 <= i < |parts| ==> sep !in parts[i]
  {
    if |s| == 0 then [""]
    else
      var rest := Split(s[1..], sep);
      if s[0] == sep then [""] + rest
      else [[s[0]] + rest[0]] + rest[1..]
  }

  /** Splitting `a + [sep] + b` where neither side holds the separator gives
      exactly the two sides. */
  lemma {:induction false} SplitOnce(a: string, sep: char, b: string)
    requires sep !in a && sep !in b
    ensures Split(a + [sep] + b, sep) == [a, b]
    decreases |a|
  {
    var s := a + [sep] + b;
    if |a| == 0 {
      assert s == [sep] + b;
      assert s[1..] == b;
      SplitNone(b, sep);
    } else {
      assert s[1..] == a[1..] + [sep] + b;
      SplitOnce(a[1..], sep, b);
      assert [a[0]] + a[1..] == a;
    }
  }

  /** A text without the separator splits into itself. */
  lemma {:induction false} SplitNone(s: string, sep: char)
    requires sep !in s
    ensures Split(s, sep) == [s]
    decreases |s|
  {
    if |s| > 0 {
      assert sep !in s[1..];
      SplitNone(s[1..], sep);
      assert [s[0]] + s[1..] == s;
    }
  }
}
